=== FILE: README.md ===
# Desa Belor website scripts: a Dafny model of the decision rules

The Desa Belor village website is static: its scripts are small event handlers wired to the page.
Several of those handlers hold real decision logic, and this project models that logic with pure
Dafny functions over immutable records and proves properties about it:

- **Active-section tracking** (`updateActiveSection` in `assets/js/main.js` and `updateActiveLink`
  in the navbar component). The scroll offset is mapped to the id of the section "in view", and the
  navigation links pointing at that section are highlighted.
- **The navbar component** (`assets/js/components/navbar.js`). This covers the mobile-menu state
  machine (toggle, Escape, outside click, link click), the edge-triggered `scrolled` class,
  link-click classification and keyboard focus movement.
- **The application shell** (`assets/js/main.js`). This covers the viewport flag set on resize, the
  document-level anchor handler, and how these combine with the navbar's own listeners.
- **Rate limiters.** `throttle` and `debounce` are modelled against an abstract integer clock. A
  pending `setTimeout` callback becomes an explicit event that may arrive at its due time or later.
- **Form validation.** This covers both validators (`validateForm` in the shell and `validate` in the
  forms component), the simple email pattern, and submit gating.
- **The staff-card carousel** (`assets/js/pages/pemerintahan.js`). This covers the scroll step per
  breakpoint, button enabling, the key, wheel and touch rules, and card centring.
- **The FAQ accordion** (`assets/js/pages/layanan.js`), which keeps at most one item open.
- **The modal component** (`assets/js/components/modal.js`). This covers the set of open modals, the
  body scroll lock, Escape, clicks and the global `openModal` / `closeModal` functions.
- **The landing-page script** (`main.js`). This covers the scroll classes, anchor scrolling and the
  once-only integer counters.

The DOM is represented as data:

- Sections are `(id, offsetTop, height)` records.
- Navigation links are `(href, active, loading)` records.
- The elements that can be found by id form a map from id to `offsetTop`.
- Class toggles are boolean fields or sets.
- Pixel and scroll values are integers. The one exception is `centerActiveCard`, which halves widths
  and is modelled over the reals.

Each module follows one source file: `Text`, `Page`, `Wrappers` (shared helpers), `ActiveSection`,
`Navbar`, `AppShell`, `RateLimit`, `Forms`, `Aparatur`, `Faq`, `Modal` and `Landing`.

Some behaviours of the code are easy to assume otherwise, so they are stated plainly here:

- **Number of scroll calls.** A click on an in-page navigation link scrolls three times, always to
  the same position (`AppShell.ClickInPageLink`). The three callers are the navbar's link handler,
  its smooth-scroll listener, and the shell's document handler.
- **Menu outside mobile viewports.** `toggleMobileMenu` opens the menu whatever the viewport.
- **Top-of-page override.** Only the navbar's `updateActiveLink` forces "hero" near the top.
  `updateActiveSection` in the shell returns "" when nothing matches.
- **Links marked for the empty id.** The shell compares each href with `"#" + id`, so a link whose
  href is exactly "#" becomes active when the id is "".
- **Helpers nobody calls.** `handleKeyboardNavigation` (assets/js/components/navbar.js:379) and
  `centerActiveCard` (assets/js/pages/pemerintahan.js:343) are defined but never called by the
  scripts. They are modelled as the functions they define.
- **Two validators on one form.** A form submit reaches the forms component's listener on the form
  and then the shell's listener on the document. The component only suppresses the default
  action, so both validate, both may send, and the shell's messages are written last.

## Model

| member | source | states |
|---|---|---|
| `Text.TrimEmptyIffBlank` | assets/js/main.js:458 | A value trims to "" exactly when every character is JavaScript white space, so the "blank" test of both validators is an all-white-space test |
| `Text.Truncate` | assets/js/main.js:158-161 | Text that fits is returned unchanged. Longer text keeps its first `maxLength` characters (none when the limit is negative) followed by "...", so its length is `max(maxLength, 0) + 3` |
| `Text.TruncateIdempotent` | assets/js/main.js:158-161 | Truncating an already truncated text changes nothing |
| `Text.Lower` | assets/js/components/forms.js:86 | Lower-casing keeps the length, maps each ASCII capital to its small letter, and leaves every other character as it was |
| `ActiveSection.LastMatch` | assets/js/main.js:672-682 | Reference definition: the index of the last section whose band accepts the offset, with no accepting section after it, or none when no band accepts |
| `ActiveSection.ScanIsLastMatch` | assets/js/main.js:670-682 | The left-to-right overwriting `forEach` ends with the id at the last matching index, or keeps its start value when nothing matches |
| `ActiveSection.Resolve` | assets/js/main.js:670-682 | The resolved id belongs to the last section in document order whose band `[offsetTop-100, offsetTop-100+height)` contains the offset. It is "" when no band does |
| `ActiveSection.ResolvedIsContaining` | assets/js/main.js:672-682 | The resolved id is "" or the id of a section whose band contains the offset |
| `ActiveSection.UpdateActiveSection` | assets/js/main.js:684-693 | The state changes only when the resolved id differs from the stored one. The links are then rewritten so that exactly those with href "#"+id are active, with hrefs and other classes kept |
| `ActiveSection.UpdateIsIdempotent` | assets/js/main.js:684-693 | A second update at the same offset writes nothing |
| `ActiveSection.FirstUpdateFromLoadState` | assets/js/main.js:9-14 | From the load state, whose stored section is "hero", the first update writes nothing exactly when the resolved section is "hero" |
| `ActiveSection.UpdateMarksAtMostOne` | assets/js/main.js:687-692 | When the links have distinct hrefs, an update that writes leaves at most one link active |
| `Navbar.Open` | assets/js/components/navbar.js:94-109 | Opening leaves the flag set, with the panel, toggle and `menu-open` classes and the body lock all matching it |
| `Navbar.Close` | assets/js/components/navbar.js:114-126 | Closing leaves the flag cleared, with the classes and the body lock all matching it |
| `Navbar.Toggle` | assets/js/components/navbar.js:81-89 | Toggling flips `isOpen` and leaves the marks consistent with it |
| `Navbar.ToggleTwice` | assets/js/components/navbar.js:81-89 | Two toggles from a consistent menu return to it |
| `Navbar.Escape` | assets/js/components/navbar.js:131-135 | Escape on an open menu performs the full `closeMobileMenu`, whatever state the marks were in. Any other key, or a closed menu, leaves the menu unchanged |
| `Navbar.LeakedEscapeListenersAreHarmless` | assets/js/components/navbar.js:102-123 | Each opening binds a fresh Escape listener that closing never removes, but any positive number of copies acts like one |
| `Navbar.DocumentClick` | assets/js/components/navbar.js:52-56 | A click outside the navbar on an open menu performs the full `closeMobileMenu`. Any other click leaves the menu unchanged |
| `Navbar.Kind` | assets/js/components/navbar.js:151-170 | An href is same-page iff it starts with "#" (and then its target is the rest of it). It is external iff it does not start with "#" but starts with "http". Every other href is another page of the site |
| `Navbar.SetActiveLink` | assets/js/components/navbar.js:276-282 | After a link is set active it is the only active link, and hrefs and `loading` classes are unchanged |
| `Navbar.HandleNavClick` | assets/js/components/navbar.js:147-179 | A "#" link whose target exists scrolls to 90px above it, closes an open menu with the full `closeMobileMenu` and becomes the only active link. A "#" link without a target only suppresses navigation. A link to another page closes an open menu the same way and gains `loading`. An "http" link changes nothing. A closed menu stays untouched and a consistent menu stays consistent |
| `Navbar.SmoothScrollClick` | assets/js/components/navbar.js:184-204 | An in-page link scrolls to 90px above its target exactly when the target exists |
| `Navbar.HandleScroll` | assets/js/components/navbar.js:209-222 | The flag becomes `offset > 50`. The class is written only when that value changes, and then with the new value |
| `Navbar.ScrolledClassTracksOffset` | assets/js/components/navbar.js:209-222 | When class and flag start equal, any run of scroll events keeps them equal and ends with both equal to "last offset > 50" |
| `Navbar.SetActiveBySection` | assets/js/components/navbar.js:257-271 | A link is active iff its href is "#"+id, or it is "./index.html" or "./" while the id is "hero". Nothing else changes |
| `Navbar.AtMostOneActiveAwayFromHero` | assets/js/components/navbar.js:257-271 | For an id other than "hero" and links with distinct hrefs, at most one link is active |
| `Navbar.NavbarScanEqualsMain` | assets/js/components/navbar.js:237-244 | Probing `[offsetTop, offsetTop+height)` at `y+100` picks the same section as the shell's `offsetTop-100` bands at `y` |
| `Navbar.ResolveForNavbar` | assets/js/components/navbar.js:232-249 | Below an offset of 100 the section is "hero". Otherwise it is exactly the section the shell's `updateActiveSection` resolves |
| `Navbar.UpdateActiveLink` | assets/js/components/navbar.js:227-252 | With the mobile menu open on a mobile viewport the links are untouched. Otherwise the links active afterwards are exactly those matching the resolved section |
| `Navbar.Next` | assets/js/components/navbar.js:383-388 | ArrowRight/ArrowDown stays within `[0,n)`, moves one forward, and wraps from the last link to 0 |
| `Navbar.Prev` | assets/js/components/navbar.js:390-396 | ArrowLeft/ArrowUp stays within `[0,n)` |
| `Navbar.FocusTarget` | assets/js/components/navbar.js:379-410 | Exactly the six navigation keys produce a target, always within `[0,n)`. ArrowRight and ArrowDown target the next link, ArrowLeft and ArrowUp the previous one, Home 0 and End `n-1` |
| `Navbar.FocusArrowsUndo` | assets/js/components/navbar.js:379-410 | Either forward arrow key followed by either backward one, or the other way round, returns focus to the starting link |
| `Navbar.NextPrevInverse` | assets/js/components/navbar.js:383-396 | Previous undoes next and next undoes previous |
| `Navbar.NextTimes` | assets/js/components/navbar.js:383-388 | Repeated "next" presses stay within `[0,n)` |
| `Navbar.NextTimesWraps` | assets/js/components/navbar.js:383-388 | `k <= n` presses of "next" move `k` places round the ring |
| `Navbar.FullCycle` | assets/js/components/navbar.js:383-388 | `n` presses of "next" return to the starting link |
| `AppShell.Initial` | assets/js/main.js:10-15 | At load the viewport flag is `width < 1024` and the menu is closed and consistent |
| `AppShell.HandleResizeAsWritten` | assets/js/main.js:246-259 | As written: the viewport flag becomes `width < 1024`. On desktop only the panel/toggle `active` classes are removed, and on mobile nothing else changes |
| `AppShell.ResizeAsWrittenDesynchronisesMenu` | assets/js/main.js:246-259 | Counterexample: after the menu is opened on a phone and the window widened to 1200px, the navbar still believes it is open. The body stays locked, and the next toggle click shows nothing |
| `AppShell.HandleResize` | assets/js/main.js:246-259 | Corrected: on desktop the menu is closed and hidden, a consistent menu stays consistent, and on mobile the menu is untouched. It agrees with the as-written version whenever the menu was closed |
| `AppShell.ResizeToDesktopThenToggle` | assets/js/main.js:246-259 | With the correction, the next toggle after a resize to desktop opens and shows the menu |
| `AppShell.HandleNavigation` | assets/js/main.js:281-302 | An in-page anchor click is suppressed. When the target exists it scrolls to 90px above it, and on mobile it also hides the panel. Nothing else changes |
| `AppShell.ClickInPageLink` | assets/js/components/navbar.js:147-204 | Through all listeners, clicking an in-page link with an existing target closes the menu consistently and leaves exactly that link active. It scrolls three times, each to 90px above the target |
| `AppShell.ClickOtherPageLink` | assets/js/components/navbar.js:169-179 | Clicking a link to another page of the site closes the menu consistently, does not scroll, and marks the link `loading` |
| `AppShell.BothScrollListenersAgree` | assets/js/components/navbar.js:209-222 | Whichever scroll listener runs first, afterwards the class and the navbar flag both equal `offset > 50` |
| `RateLimit.ThrottleCall` | assets/js/main.js:50-59 | A call passes exactly when not throttled. A passing call opens a window of `limit` and a blocked call changes nothing |
| `RateLimit.ThrottleTimer` | assets/js/main.js:56 | The timer clears the flag only once its delay has elapsed |
| `RateLimit.ThrottleWindowBlocks` | assets/js/main.js:50-59 | After a call passes at `t0`, no sequence of events inside `[t0, t0+limit)` lets another call through |
| `RateLimit.FirstCallPasses` | assets/js/main.js:52-57 | A call made while not throttled always passes |
| `RateLimit.DebounceCall` | assets/js/main.js:38-47 | Each call replaces the pending callback with one due `wait` later that holds this call's arguments. The function runs at once only with `immediate` and no callback pending |
| `RateLimit.DebounceExpire` | assets/js/main.js:39-42 | A callback cannot run early. When it runs it clears the timer and, without `immediate`, calls the function with its captured arguments |
| `RateLimit.BurstLeavesLastPending` | assets/js/main.js:36-48 | A burst of calls runs nothing and leaves one callback pending, due `wait` after the last call and holding its arguments |
| `RateLimit.TrailingRunsOnceWithLastArgs` | assets/js/main.js:36-48 | Without `immediate`, a burst runs the function once, with the last call's arguments, no earlier than `wait` after the last call. A later expiry runs nothing |
| `RateLimit.LeadingRunsFirstCallOnly` | assets/js/main.js:43-46 | With `immediate`, a burst from idle runs the function once, with the first call's arguments |
| `RateLimit.PendingBurstRunsNothing` | assets/js/main.js:43-46 | With `immediate`, calls made while a callback is pending run nothing |
| `Forms.IsValidEmail` | assets/js/main.js:537-540 | The check accepts exactly the strings that split as `[^\s@]+ "@" [^\s@]+ "." [^\s@]+` |
| `Forms.EmailSplitAt` | assets/js/main.js:538 | With the first "@" fixed, the pattern matches iff the local part is a non-empty run without white space or "@", and the domain is such a run with a "." that has text on both sides |
| `Forms.ValidEmailShape` | assets/js/main.js:538 | An accepted address has no white space and exactly one "@", with text before it |
| `Forms.Check` | assets/js/components/forms.js:36-43 | A required blank field is Missing. A required non-blank email field that fails the test is BadEmail. Anything else has no problem, so there is at most one problem per field and none for optional fields |
| `Forms.AllPass` | assets/js/main.js:455-469 | The accumulated `isValid` is true iff every field passes |
| `Forms.ShowTexts` | assets/js/main.js:508-519 | `showFieldError` puts its message first among the parent's error texts, replacing the previous first text or adding one, and leaves every other container as it was |
| `Forms.ClearTexts` | assets/js/main.js:524-531 | `clearFieldError` drops the parent's first error text, keeps the others, never adds an element, and leaves every other container as it was |
| `Forms.MainVerdictMeaning` | assets/js/main.js:458-466 | The shell leaves no text for a passing field, "Field ini wajib diisi" exactly for a blank required field, and "Format email tidak valid" exactly for a rejected address |
| `Forms.MainClassesMeaning` | assets/js/main.js:457-468 | After the `forEach`, each required field has the `error` class iff it fails, and fields that are not required keep theirs |
| `Forms.LastRequiredInMeaning` | assets/js/main.js:454-457 | The lookup finds a required field under the container with no later one, and finds none only when there is none |
| `Forms.MainErrorsTexts` | assets/js/main.js:457-468 | A container that started with at most one error text ends with what the last required field under it left, and is untouched when there is no such field |
| `Forms.ValidateForm` | assets/js/main.js:453-470 | The result is true iff every field passes `isValidEmail` and the blank test. Each required field has the `error` class iff it fails, and other fields keep theirs. A valid form gains no error element |
| `Forms.SharedParentLastFieldDecides` | assets/js/main.js:453-531 | Messages are kept per parent element: the last required field under a parent decides its text, empty iff that field passes, "Field ini wajib diisi" iff it is blank, "Format email tidak valid" iff its address is rejected |
| `Forms.SharedParentHidesEarlierError` | assets/js/main.js:453-531 | A blank required field followed by a filled one under the same parent: the form is rejected and the first field is marked, yet no message is left |
| `Forms.HandleFormSubmit` | assets/js/main.js:307-322 | A submission is sent exactly when the target is a form and every field passes. Any other target changes nothing |
| `Forms.ComponentEmailIgnoresCase` | assets/js/components/forms.js:84-87 | Two addresses equal up to ASCII case get the same verdict from the component |
| `Forms.ComponentEmailLowerInvariant` | assets/js/components/forms.js:84-87 | Lower-casing an address first never changes the component's verdict |
| `Forms.ComponentFieldMeaning` | assets/js/components/forms.js:36-43 | A field outside the group adds nothing to it. Inside, it adds nothing iff it passes, "Kolom ini wajib diisi." iff it is blank, and "Format email tidak valid." iff its address is rejected |
| `Forms.ComponentClassesMeaning` | assets/js/components/forms.js:34-44 | After the `forEach`, each field has the `error` class iff it had it after clearing or it fails |
| `Forms.ComponentErrorsTexts` | assets/js/components/forms.js:36-44 | Each group holds the messages of its failing fields, one per field, in document order |
| `Forms.Validate` | assets/js/components/forms.js:28-47 | The result is true iff every field passes. Afterwards the marked fields are exactly the failing ones, whatever was marked before, and the result is true iff no element or class is left |
| `Forms.ValidateGroupMessages` | assets/js/components/forms.js:28-47 | Whatever was shown before, each `.form-group` ends with exactly one message per failing field in it, in document order |
| `Forms.ValidateForgetsPriorErrors` | assets/js/components/forms.js:32-34 | Errors left by an earlier validation have no influence on the result |
| `Forms.HandleSubmit` | assets/js/components/forms.js:22-26 | `submit` runs iff every field passes, which is iff no error element or class is left |
| `Forms.SubmitEvent` | assets/js/components/forms.js:13-18 | One submit event sends the form once for each validator that accepts it, so zero, one or two times |
| `Forms.ValidFormSentTwice` | assets/js/main.js:210 | A form both validators accept is sent twice, once by each listener, and is left with no error |
| `Forms.ShellOverridesComponent` | assets/js/main.js:210 | Where the component left at most one message in a container, the shell's pass decides the final text there, in the shell's wording, or leaves the component's message when no required field has that parent |
| `Forms.BlankFieldShowsShellMessage` | assets/js/main.js:458-460 | A single blank required field is not sent, and the component's "Kolom ini wajib diisi." is replaced by the shell's "Field ini wajib diisi" |
| `Aparatur.ScrollAmount` | assets/js/pages/pemerintahan.js:27-33 | The step is 200 exactly up to 575px, 240 exactly from 576px to 767px, 280 exactly from 768px to 991px, and 320 exactly above 991px |
| `Aparatur.ScrollAmountMonotone` | assets/js/pages/pemerintahan.js:27-33 | A wider window never gets a smaller step |
| `Aparatur.SomeButtonEnabled` | assets/js/pages/pemerintahan.js:54-75 | When the strip overflows by more than 20px, at least one button is usable |
| `Aparatur.EndsDisableTheirButton` | assets/js/pages/pemerintahan.js:54-75 | At scroll 0 the left button is disabled. At the maximum scroll the right one is |
| `Aparatur.ButtonStep` | assets/js/pages/pemerintahan.js:36-51 | The left button scrolls left and the right button scrolls right, each by the breakpoint's step |
| `Aparatur.ButtonsAreOpposite` | assets/js/pages/pemerintahan.js:36-51 | The two buttons move by equal amounts in opposite directions |
| `Aparatur.KeyStep` | assets/js/pages/pemerintahan.js:122-138 | Only ArrowLeft and ArrowRight act, and each acts exactly like the matching button |
| `Aparatur.WheelStep` | assets/js/pages/pemerintahan.js:141-154 | The event is ignored exactly when `abs(deltaX) > abs(deltaY)`, and otherwise the strip scrolls by +150 when `deltaY > 0` and by -150 when not |
| `Aparatur.WheelReverses` | assets/js/pages/pemerintahan.js:141-154 | Reversing a non-zero vertical delta reverses the step and keeps an ignored event ignored. The event with both deltas 0 scrolls back by 150 |
| `Aparatur.DragFollowsFinger` | assets/js/pages/pemerintahan.js:107-109 | A finger at its starting point requests the starting scroll, and each pixel the finger moves right requests two pixels less |
| `Aparatur.TouchMoveAsWritten` | assets/js/pages/pemerintahan.js:102-112 | As written: a move is skipped iff no touch is recorded or the touch began at x 0. Otherwise it requests `startScroll - 2*(x - startX)` |
| `Aparatur.TouchAtLeftEdgeIgnored` | assets/js/pages/pemerintahan.js:92-112 | Counterexample: a drag starting exactly at the strip's left edge never scrolls |
| `Aparatur.TouchMove` | assets/js/pages/pemerintahan.js:102-112 | Corrected: a move is skipped iff no touch is recorded. It agrees with the as-written handler whenever the touch did not start at 0 |
| `Aparatur.DragBackRestores` | assets/js/pages/pemerintahan.js:92-112 | Dragging back to the starting point requests the starting scroll position |
| `Aparatur.CenterIndex` | assets/js/pages/pemerintahan.js:351 | The middle index is `floor(n/2)`: below `n`, with `2c <= n <= 2c+1` |
| `Aparatur.CenterActiveCard` | assets/js/pages/pemerintahan.js:343-359 | It does nothing without the strip or without cards. Otherwise the target is 0 exactly when centring the middle card needs no positive scroll, and any other target puts the middle card's centre under the strip's centre |
| `Aparatur.WiderStripScrollsLess` | assets/js/pages/pemerintahan.js:343-359 | For the same cards, a wider strip never asks for a larger scroll position |
| `Faq.Click` | assets/js/pages/layanan.js:17-27 | After a click the clicked item is open iff it was closed, and every other item is closed. At most one item is open |
| `Faq.ClickTwiceCloses` | assets/js/pages/layanan.js:17-27 | Clicking one question twice from the closed page closes everything again |
| `Faq.ClickRefinesAbstract` | assets/js/pages/layanan.js:17-27 | On a page with at most one open item, the class-level click is the single-index accordion: open `i`, or close it when it was the open one |
| `Faq.Clicks` | assets/js/pages/layanan.js:15-28 | After any non-empty run of clicks, at most one item is open |
| `Modal.Open` | assets/js/components/modal.js:53-59 | An existing element becomes active and the body is locked. An unknown id changes nothing |
| `Modal.Close` | assets/js/components/modal.js:61-72 | Only the given element loses `active`. The body lock stays only while some modal remains open |
| `Modal.FirstOpen` | assets/js/components/modal.js:45 | The modal Escape looks at is the first open modal in document order. There is none iff no modal is open |
| `Modal.Escape` | assets/js/components/modal.js:43-50 | Escape closes the first open modal in document order, and does nothing when none is open or the key is another |
| `Modal.EscapeClosesOne` | assets/js/components/modal.js:43-50 | One Escape press removes exactly one modal from the open set |
| `Modal.LockFollowsOpenModals` | assets/js/components/modal.js:53-72 | Opening a modal and closing anything keep "body locked" equal to "some modal is open" |
| `Modal.HandleClick` | assets/js/components/modal.js:14-40 | An open-trigger click opens the named modal. An overlay click closes that modal. A close-trigger click closes the enclosing modal. A click reaching no trigger changes nothing |
| `Modal.OpenModal` | assets/js/components/modal.js:76-78 | `openModal(id)` adds exactly "modal-"+id to the open set and locks the body when that element exists, and otherwise does nothing |
| `Modal.ResolveModal` | assets/js/components/modal.js:80-83 | `closeModal(id)` prefers "modal-"+id and falls back to `id`. It finds nothing iff neither exists |
| `Modal.CloseModal` | assets/js/components/modal.js:60-83 | Whatever the lookup found, and only that, loses `active`; the body lock is lifted when no modal is left open and is otherwise kept, as `close` does for the found element. Nothing changes when the lookup found nothing |
| `Modal.OpenThenCloseModal` | assets/js/components/modal.js:76-83 | `closeModal(id)` undoes `openModal(id)` |
| `Landing.OnScroll` | main.js:2-12 | The navbar's `scrolled` class and the button's `visible` class are both `scrollY > 50`, so they are always equal |
| `Landing.AnchorClick` | main.js:15-30 | An href of "#" alone is ignored. Any longer href suppresses navigation, and it scrolls to 70px above the target exactly when the target exists |
| `Landing.AnchorMatchesNavbarScroll` | main.js:15-30 | For every in-page href, the landing script and the navbar component agree on whether to scroll, and the landing script stops 20px lower (70px instead of 90px above the target) |
| `Landing.CeilDiv` | main.js:41 | The ceiling quotient is the least `q` with `q*b >= a` |
| `Landing.Increment` | main.js:41 | The step is `max(1, ceil(target/200))`: at least 1, large enough to reach the target in 200 steps, and the least such value above 1 |
| `Landing.Frames` | main.js:42-50 | The k-th displayed value before the last is `count + (k+1)*inc`, strictly between the start and the target. The last displayed value is exactly the target, reached on the first step that gets to or past it |
| `Landing.CounterFinishesWithinSteps` | main.js:39-51 | A counter starting at 0 displays at most 200 values and ends on its target |
| `Landing.AnimateCounters` | main.js:33-53 | The first call animates every counter from 0: counter i shows `inc, 2*inc, ...` with `inc = max(1, ceil(target/200))`, then ends on its target, and shows exactly as many values as it takes the step to reach the target: all but the last step stay below it, and the last reaches it. This is `Frames` from 0 for each counter. Any later call changes nothing |
| `Landing.CountersRunOnce` | main.js:33-36 | However often the observer fires, the counters run once |

## Left out

- DOM querying, element caching, `innerHTML`, tooltips, notifications, lazy loading and the
  `animate-on-scroll` classes are not modelled. They are rendering with no decision logic. The DOM
  appears only as the records described above.
- Real timers, `IntersectionObserver`, smooth-scroll animation and the staggered menu-item animation
  are not modelled. Time is an abstract integer clock, and a timer callback is an explicit event that
  may not arrive early.
- The floating-point animations are not modelled: `animateNumber` (assets/js/main.js:93-108), the
  counters of the profile and gallery pages, and the hero parallax of the landing script.
  Only the landing script's integer counters are modelled.
- `formatDate` is not modelled, because it depends on the browser's date parsing.
- Bootstrap `Modal` / `Collapse` calls, `history.pushState` and the page-based branch of
  `setActiveLink()` (location path matching) are not modelled. The model covers only `setActiveLink`
  with an explicit link.
- `handleKeyboard` of assets/js/main.js (registered at line 213) is not modelled. Its Escape branch
  calls `this.closeModal` (line 332), a method the `DesaBelor` object never defines, so with a
  modal open it throws and changes nothing; modal.js's own Escape listener does the closing. The
  same undefined call is reached at line 500 only for a form inside a modal: there the timer
  callback throws after showing the notification and resetting the form and its button
  (lines 488-495), so the modal stays open. For a form outside a modal the callback ends normally.
- The shell's `window.openModal` / `window.closeModal` (assets/js/main.js:581-611) are not part of
  this model. modal.js assigns the same globals, and which assignment wins depends on the load
  order, which is not modelled; the model uses the modal.js versions.
- The gallery component, the home page and the profile page are not part of this model. They hold
  display data and rendering only.
- Event-listener bookkeeping is not modelled beyond `Navbar.LeakedEscapeListenersAreHarmless`.
- `querySelector(href)` is modelled as a lookup of the id after "#". A href that is not a valid CSS
  selector would throw in the browser, and that case is not modelled.
- `scrollBy` / `scrollTo` clamping by the browser is not modelled. The model gives the position or
  delta that the scripts request.
- The body's `overflow` style is shared by the navbar and the modal component. Each module models
  its own lock, and their interaction is not modelled.
- `Forms.ComponentEmailOk`: the RFC-style address pattern of the forms component is an unmodelled
  parameter. Only its use on the lower-cased address is modelled.
- `Text.Lower`: lower-casing covers ASCII letters only. JavaScript's `toLowerCase` also maps
  non-ASCII capitals.
- `Landing.Frames`: a non-numeric `data-target` makes `parseInt` return NaN. That case is not
  modelled, because targets are integers.
- `Aparatur.CenterActiveCard` uses exact reals rather than IEEE doubles.
- Error containers are not nested: an error element belongs to exactly one container, a field's
  parent or its `.form-group`, and `querySelector` on a parent sees only that container's elements.
- `Forms.SharedParentLastFieldDecides` and `Forms.ShellOverridesComponent` cover a container that
  holds at most one error element before the shell runs. With more, the shell edits only the first
  one and the rest stay, which the model computes but no lemma describes.
- `Modal.FirstOpen`: an element with class `modal active` but no id cannot be represented, because
  modals are identified by id.
- String lengths count characters. JavaScript counts UTF-16 code units, which differs outside the
  Basic Multilingual Plane.

## Findings

| source | as written | input that shows it | evidently intended | confidence | as-written member | corrected member |
|---|---|---|---|---|---|---|
| assets/js/main.js:250-258 | On a desktop-width resize, `handleResize` removes `active` from the menu panel and toggle only. The navbar's `isOpen`, its `menu-open` class and the body's `overflow: hidden` are left as they were | Open the menu at width 800, then resize to 1200. The panel is hidden but `isOpen` is still true and the page cannot scroll, and the next toggle click closes the hidden menu, so nothing appears | Close the menu through the navbar component, so the flag, classes and body lock agree | medium, not executed | `AppShell.ResizeAsWrittenDesynchronisesMenu` | `AppShell.HandleResize` |
| assets/js/pages/pemerintahan.js:105 | `if (!startX) return;` also treats a recorded start position of 0 as "no touch" | A touch that starts exactly at the strip's left edge (`pageX == offsetLeft`) never scrolls the strip, however far it is dragged | Skip the move only when no touch is recorded (`startX === null`) | low, not executed | `Aparatur.TouchAtLeftEdgeIgnored` | `Aparatur.TouchMove` |

=== FILE: aparatur.dfy ===
/**
 * The horizontally scrolling staff cards of assets/js/pages/pemerintahan.js:
 * the breakpoint-dependent scroll step, the edge rules that disable the
 * arrow buttons, the key, wheel and touch rules, and `centerActiveCard`.
 * Positions are whole pixels except in `centerActiveCard`, whose halving is
 * done over the reals.
 */
module Aparatur {
  import opened Wrappers

  /** `getScrollAmount`: a wider window scrolls further per step. */
  function ScrollAmount(width: int): (r: int)
    ensures r in {200, 240, 280, 320}
    ensures r == 200 <==> width <= 575
    ensures r == 240 <==> 575 < width <= 767
    ensures r == 280 <==> 767 < width <= 991
    ensures r == 320 <==> width > 991
  {
    if width <= 575 then 200
    else if width <= 767 then 240
    else if width <= 991 then 280
    else 320
  }

  /** The step never shrinks as the window widens. */
  lemma ScrollAmountMonotone(w1: int, w2: int)
    requires w1 <= w2
    ensures ScrollAmount(w1) <= ScrollAmount(w2)
  {
  }

  /** Within this many pixels of an end, the button towards that end is disabled. */
  const EdgeSlack := 10

  /** Which arrow buttons `updateScrollButtons` dims and makes unclickable. */
  datatype Buttons = Buttons(leftDisabled: bool, rightDisabled: bool)

  /** `updateScrollButtons`, with `maxScroll = scrollWidth - clientWidth`. */
  function UpdateScrollButtons(scrollLeft: int, scrollWidth: int, clientWidth: int): (b: Buttons)
    ensures b.leftDisabled <==> scrollLeft <= EdgeSlack
    ensures b.rightDisabled <==> scrollLeft >= scrollWidth - clientWidth - EdgeSlack
  {
    var maxScroll := scrollWidth - clientWidth;
    Buttons(scrollLeft <= EdgeSlack, scrollLeft >= maxScroll - EdgeSlack)
  }

  /** When the strip overflows by more than twice the slack, some button is always usable. */
  lemma SomeButtonEnabled(scrollLeft: int, scrollWidth: int, clientWidth: int)
    requires scrollWidth - clientWidth > 2 * EdgeSlack
    ensures var b := UpdateScrollButtons(scrollLeft, scrollWidth, clientWidth);
            !(b.leftDisabled && b.rightDisabled)
  {
  }

  /** At either end of the strip, the button pointing past that end is disabled. */
  lemma EndsDisableTheirButton(scrollWidth: int, clientWidth: int)
    ensures UpdateScrollButtons(0, scrollWidth, clientWidth).leftDisabled
    ensures UpdateScrollButtons(scrollWidth - clientWidth, scrollWidth, clientWidth).rightDisabled
  {
  }

  /** The two arrow buttons. */
  datatype Direction = Left | Right

  /** The button click handlers: `scrollBy` one step left or right. */
  function ButtonStep(d: Direction, width: int): (delta: int)
    ensures d == Left ==> delta < 0
    ensures d == Right ==> delta > 0
    ensures Abs(delta) == ScrollAmount(width)
  {
    match d
    case Left => -ScrollAmount(width)
    case Right => ScrollAmount(width)
  }

  /** The two buttons move by the same amount in opposite directions. */
  lemma ButtonsAreOpposite(width: int)
    ensures ButtonStep(Left, width) == -ButtonStep(Right, width)
  {
  }

  /** The keydown handler: ArrowLeft and ArrowRight act like the buttons; other keys do nothing. */
  function KeyStep(key: string, width: int): (delta: Option<int>)
    ensures delta.Some? <==> key == "ArrowLeft" || key == "ArrowRight"
    ensures key == "ArrowLeft" ==> delta == Some(ButtonStep(Left, width))
    ensures key == "ArrowRight" ==> delta == Some(ButtonStep(Right, width))
  {
    if key == "ArrowLeft" then Some(-ScrollAmount(width))
    else if key == "ArrowRight" then Some(ScrollAmount(width))
    else None
  }

  function Abs(x: int): nat {
    if x < 0 then -x else x
  }

  /** How far one wheel notch scrolls the strip. */
  const WheelStepSize := 150

  /** The wheel handler: mostly-horizontal gestures are left alone; otherwise a fixed step in the wheel's direction. */
  function WheelStep(deltaX: int, deltaY: int): (delta: Option<int>)
    ensures delta.None? <==> Abs(deltaX) > Abs(deltaY)
    ensures delta.Some? ==> (delta.value == WheelStepSize <==> deltaY > 0)
    ensures delta.Some? ==> Abs(delta.value) == WheelStepSize
  {
    if Abs(deltaX) > Abs(deltaY) then None
    else Some(if deltaY > 0 then WheelStepSize else -WheelStepSize)
  }

  /** Reversing a vertical wheel movement reverses the step; a still wheel counts as scrolling left. */
  lemma WheelReverses(deltaX: int, deltaY: int)
    ensures deltaY != 0 ==>
              WheelStep(deltaX, -deltaY) == match WheelStep(deltaX, deltaY) case None => None case Some(d) => Some(-d)
    ensures WheelStep(0, 0) == Some(-WheelStepSize)
  {
  }

  /** What `touchstart` records: the finger's x within the strip and the scroll position then. */
  datatype Drag = Drag(startX: int, startScroll: int)

  /** `touchstart`. */
  function TouchStart(pageX: int, offsetLeft: int, scrollLeft: int): Drag {
    Drag(pageX - offsetLeft, scrollLeft)
  }

  /** Moving the finger right by `d` asks for a scroll position `2d` further left. */
  function DragTarget(drag: Drag, x: int): (pos: int)
    ensures pos + 2 * (x - drag.startX) == drag.startScroll
  {
    drag.startScroll - (x - drag.startX) * 2
  }

  /** The finger at its starting point asks for the starting scroll; each pixel further right asks for two pixels less. */
  lemma DragFollowsFinger(drag: Drag, x: int, k: int)
    ensures DragTarget(drag, drag.startX) == drag.startScroll
    ensures DragTarget(drag, x + k) == DragTarget(drag, x) - 2 * k
  {
  }

  /**
   * `touchmove` as written: `if (!startX) return` skips the move when no
   * touch is recorded, but also when the touch began exactly at the strip's
   * left edge, where `startX` is the falsy number 0.
   */
  function TouchMoveAsWritten(drag: Option<Drag>, pageX: int, offsetLeft: int): (pos: Option<int>)
    ensures pos.None? <==> drag.None? || drag.value.startX == 0
    ensures pos.Some? ==> pos.value == DragTarget(drag.value, pageX - offsetLeft)
  {
    match drag
    case None => None
    case Some(dr) => if dr.startX == 0 then None else Some(DragTarget(dr, pageX - offsetLeft))
  }

  /** A drag that starts at the strip's left edge never scrolls, however far the finger moves. */
  lemma TouchAtLeftEdgeIgnored(offsetLeft: int, scrollLeft: int, pageX: int)
    ensures TouchMoveAsWritten(Some(TouchStart(offsetLeft, offsetLeft, scrollLeft)), pageX, offsetLeft).None?
  {
  }

  /** `touchmove` corrected to test for a recorded touch instead of a truthy number. */
  function TouchMove(drag: Option<Drag>, pageX: int, offsetLeft: int): (pos: Option<int>)
    ensures pos.None? <==> drag.None?
    ensures pos.Some? ==> pos.value == DragTarget(drag.value, pageX - offsetLeft)
    ensures drag.Some? && drag.value.startX != 0 ==> pos == TouchMoveAsWritten(drag, pageX, offsetLeft)
  {
    match drag
    case None => None
    case Some(dr) => Some(DragTarget(dr, pageX - offsetLeft))
  }

  /** Dragging back to where the touch began asks for the scroll position the touch began with. */
  lemma DragBackRestores(pageX: int, offsetLeft: int, scrollLeft: int)
    ensures TouchMove(Some(TouchStart(pageX, offsetLeft, scrollLeft)), pageX, offsetLeft) == Some(scrollLeft)
  {
  }

  /** Space between adjacent cards. */
  const CardGap := 24

  /** The index of the middle card. */
  function CenterIndex(n: nat): (c: nat)
    requires n > 0
    ensures c < n && n <= 2 * c + 1 && 2 * c <= n
  {
    n / 2
  }

  /**
   * `centerActiveCard`: with the strip and at least one card present, the
   * scroll target that puts the middle card's centre under the strip's
   * centre, raised to 0 when that would be negative.
   */
  function CenterActiveCard(containerWidth: Option<int>, cardWidths: seq<int>): (target: Option<real>)
    ensures target.None? <==> containerWidth.None? || |cardWidths| == 0
    ensures target.Some? ==> target.value >= 0.0
    ensures target.Some? && target.value > 0.0 ==>
              var step := (cardWidths[0] + CardGap) as real;
              target.value + containerWidth.value as real / 2.0 == CenterIndex(|cardWidths|) as real * step + step / 2.0
    ensures target.Some? ==>
              var step := (cardWidths[0] + CardGap) as real;
              (target.value == 0.0 <==>
                 CenterIndex(|cardWidths|) as real * step + step / 2.0 <= containerWidth.value as real / 2.0)
  {
    if containerWidth.None? || |cardWidths| == 0 then None
    else
      var cardWidth := (cardWidths[0] + CardGap) as real;
      var position := CenterIndex(|cardWidths|) as real * cardWidth - containerWidth.value as real / 2.0 + cardWidth / 2.0;
      Some(if position > 0.0 then position else 0.0)
  }

  /** A wider strip never asks for a larger scroll position. */
  lemma WiderStripScrollsLess(w1: int, w2: int, cardWidths: seq<int>)
    requires w1 <= w2 && |cardWidths| > 0
    ensures CenterActiveCard(Some(w2), cardWidths).value <= CenterActiveCard(Some(w1), cardWidths).value
  {
  }
}

=== FILE: faq.dfy ===
/**
 * The FAQ accordion of assets/js/pages/layanan.js: each item carries an
 * `active` class; clicking a question closes every item and reopens the
 * clicked one unless it was the open one.
 */
module Faq {
  import opened Wrappers

  /** No two items are open at once. */
  predicate AtMostOneOpen(items: seq<bool>) {
    forall i, j :: 0 <= i < |items| && 0 <= j < |items| && items[i] && items[j] ==> i == j
  }

  /** The click listener of item `i`'s question. */
  function Click(items: seq<bool>, i: nat): (r: seq<bool>)
    requires i < |items|
    ensures |r| == |items|
    ensures r[i] <==> !items[i]
    ensures forall j :: 0 <= j < |r| && j != i ==> !r[j]
    ensures AtMostOneOpen(r)
  {
    var wasActive := items[i];
    seq(|items|, j requires 0 <= j < |items| => j == i && !wasActive)
  }

  /** The page as loaded: every item closed. */
  function AllClosed(n: nat): (items: seq<bool>)
    ensures |items| == n && forall j :: 0 <= j < n ==> !items[j]
  {
    seq(n, j => false)
  }

  /** Clicking the same question twice from the closed page closes it again. */
  lemma ClickTwiceCloses(n: nat, i: nat)
    requires i < n
    ensures Click(Click(AllClosed(n), i), i) == AllClosed(n)
  {
  }

  /** Which item is open, read off the classes of an accordion with at most one open item. */
  function OpenItem(items: seq<bool>): (r: Option<nat>)
    ensures r.Some? ==> r.value < |items| && items[r.value]
    ensures r.None? ==> forall j :: 0 <= j < |items| ==> !items[j]
  {
    if |items| == 0 then None
    else if items[|items| - 1] then Some(|items| - 1)
    else OpenItem(items[..|items| - 1])
  }

  /** The accordion as a single optional open index: a click opens `i` unless `i` was the open one. */
  function AbstractClick(open: Option<nat>, i: nat): Option<nat> {
    if open == Some(i) then None else Some(i)
  }

  /** The class-level click refines the single-index accordion. */
  lemma {:induction false} ClickRefinesAbstract(items: seq<bool>, i: nat)
    requires i < |items| && AtMostOneOpen(items)
    ensures OpenItem(Click(items, i)) == AbstractClick(OpenItem(items), i)
  {
    var r := Click(items, i);
    if items[i] {
      assert OpenItem(items) == Some(i);
    } else {
      assert OpenItem(items) != Some(i);
      assert OpenItem(r) == Some(i);
    }
  }

  /** Any run of clicks leaves at most one item open, whatever the page started with. */
  function Clicks(items: seq<bool>, clicks: seq<nat>): (r: seq<bool>)
    requires forall k :: 0 <= k < |clicks| ==> clicks[k] < |items|
    ensures |r| == |items|
    ensures |clicks| > 0 ==> AtMostOneOpen(r)
    decreases |clicks|
  {
    if |clicks| == 0 then items
    else Clicks(Click(items, clicks[0]), clicks[1..])
  }
}

=== FILE: forms.dfy ===
/**
 * Form validation: `validateForm` / `isValidEmail` of assets/js/main.js and
 * `validate` / `handleSubmit` / `isValidEmail` of assets/js/components/forms.js.
 * Only fields carrying `required` are checked; a field fails when its value
 * is blank after trimming, or when it is an email field whose value the
 * email test rejects.
 */
module Forms {
  import opened Wrappers
  import opened Text

  // ---------------------------------------------------------------------
  // The simple email pattern of main.js: ^[^\s@]+@[^\s@]+\.[^\s@]+$
  // ---------------------------------------------------------------------

  /** A character of the class `[^\s@]`. */
  predicate AtomChar(c: char) {
    c != '@' && !IsSpace(c)
  }

  /** A match of `[^\s@]+`. */
  predicate Atom(t: string) {
    |t| > 0 && forall i :: 0 <= i < |t| ==> AtomChar(t[i])
  }

  /** The whole string splits as Atom "@" Atom "." Atom, as the pattern demands. */
  ghost predicate MatchesSimpleEmail(s: string) {
    exists a, k :: 0 <= a < k < |s| && s[a] == '@' && s[k] == '.' &&
                   Atom(s[..a]) && Atom(s[a + 1..k]) && Atom(s[k + 1..])
  }

  /** The first index of `c` in `s`, if any. */
  function IndexOf(s: string, c: char): (r: Option<nat>)
    ensures r.Some? ==> r.value < |s| && s[r.value] == c && forall j :: 0 <= j < r.value ==> s[j] != c
    ensures r.None? ==> forall j :: 0 <= j < |s| ==> s[j] != c
  {
    if |s| == 0 then None
    else if s[0] == c then Some(0)
    else match IndexOf(s[1..], c)
      case None => None
      case Some(i) => Some(i + 1)
  }

  /** A "." with at least one character on each side. */
  predicate HasInnerDot(d: string) {
    exists k :: 0 < k < |d| - 1 && d[k] == '.'
  }

  /** `DesaBelor.isValidEmail`, computed by locating the "@" and then a dot in the domain. */
  function IsValidEmail(s: string): (r: bool)
    ensures r <==> MatchesSimpleEmail(s)
  {
    match IndexOf(s, '@')
    case None =>
      assert !MatchesSimpleEmail(s);
      false
    case Some(a) =>
      EmailSplitAt(s, a);
      Atom(s[..a]) && Atom(s[a + 1..]) && HasInnerDot(s[a + 1..])
  }

  /** With the first "@" at `a`, the pattern matches exactly when the two sides have the required shape. */
  lemma EmailSplitAt(s: string, a: nat)
    requires a < |s| && s[a] == '@' && forall j :: 0 <= j < a ==> s[j] != '@'
    ensures MatchesSimpleEmail(s) <==> Atom(s[..a]) && Atom(s[a + 1..]) && HasInnerDot(s[a + 1..])
  {
    if Atom(s[..a]) && Atom(s[a + 1..]) && HasInnerDot(s[a + 1..]) {
      EmailSplitSufficient(s, a);
    }
    if MatchesSimpleEmail(s) {
      EmailSplitNecessary(s, a);
    }
  }

  lemma EmailSplitSufficient(s: string, a: nat)
    requires a < |s| && s[a] == '@'
    requires Atom(s[..a]) && Atom(s[a + 1..]) && HasInnerDot(s[a + 1..])
    ensures MatchesSimpleEmail(s)
  {
    var d := s[a + 1..];
    var k :| 0 < k < |d| - 1 && d[k] == '.';
    assert s[a + 1..a + 1 + k] == d[..k];
    assert s[a + 1 + k + 1..] == d[k + 1..];
    assert s[a + 1 + k] == '.';
  }

  lemma EmailSplitNecessary(s: string, a: nat)
    requires a < |s| && s[a] == '@' && forall j :: 0 <= j < a ==> s[j] != '@'
    requires MatchesSimpleEmail(s)
    ensures Atom(s[..a]) && Atom(s[a + 1..]) && HasInnerDot(s[a + 1..])
  {
    var a', k :| 0 <= a' < k < |s| && s[a'] == '@' && s[k] == '.' &&
                 Atom(s[..a']) && Atom(s[a' + 1..k]) && Atom(s[k + 1..]);
    assert forall i :: 0 <= i < a' ==> s[..a'][i] == s[i];
    assert a' == a;
    var d := s[a + 1..];
    var left, right := s[a + 1..k], s[k + 1..];
    forall i | 0 <= i < |d|
      ensures AtomChar(d[i])
    {
      if i < |left| {
        assert d[i] == left[i];
      } else if i > |left| {
        assert d[i] == right[i - |left| - 1];
      }
    }
    assert d[k - (a + 1)] == '.';
  }

  /** An accepted address has no white space and exactly one "@", with text before it. */
  lemma ValidEmailShape(s: string)
    requires IsValidEmail(s)
    ensures forall i :: 0 <= i < |s| ==> !IsSpace(s[i])
    ensures exists a :: 0 < a < |s| && s[a] == '@' && forall j :: 0 <= j < |s| && s[j] == '@' ==> j == a
  {
    var a := IndexOf(s, '@').value;
    EmailSplitNecessary(s, a);
    var local, domain := s[..a], s[a + 1..];
    forall i | 0 <= i < |s|
      ensures AtomChar(s[i]) || i == a
    {
      if i < a {
        assert s[i] == local[i];
      } else if i > a {
        assert s[i] == domain[i - a - 1];
      }
    }
  }

  // ---------------------------------------------------------------------
  // Fields and per-field verdicts
  // ---------------------------------------------------------------------

  /**
   * A form control: its value, its `type`, whether it is `required`, the
   * element its `parentNode` is (`parent`) and its closest `.form-group`
   * (`group`). Containers are numbered within the form.
   */
  datatype Field = Field(value: string, kind: string, required: bool, parent: nat, group: Option<nat>)

  /** Why a field fails. */
  datatype Problem = Missing | BadEmail

  /**
   * The verdict both validators reach for one field, given the email test
   * they use. Both test `!value.trim()`, which by `TrimEmptyIffBlank` holds
   * exactly for blank values.
   */
  function Check(f: Field, emailOk: string -> bool): (p: Option<Problem>)
    ensures p == Some(Missing) <==> f.required && Blank(f.value)
    ensures p == Some(BadEmail) <==> f.required && !Blank(f.value) && f.kind == "email" && !emailOk(f.value)
  {
    TrimEmptyIffBlank(f.value);
    if !f.required then None
    else if Blank(f.value) then Some(Missing)
    else if f.kind == "email" && !emailOk(f.value) then Some(BadEmail)
    else None
  }

  /** A field passes: it is optional, or filled in and, for email fields, accepted by the test. */
  predicate Passes(f: Field, emailOk: string -> bool) {
    f.required ==> !Blank(f.value) && (f.kind == "email" ==> emailOk(f.value))
  }

  /** The fold behind `isValid`: it stays true until some field fails. */
  function AllPass(fields: seq<Field>, emailOk: string -> bool): (ok: bool)
    ensures ok <==> forall i :: 0 <= i < |fields| ==> Passes(fields[i], emailOk)
  {
    if |fields| == 0 then true
    else Check(fields[0], emailOk).None? && AllPass(fields[1..], emailOk)
  }

  // ---------------------------------------------------------------------
  // The error display of a form
  // ---------------------------------------------------------------------

  /** A `.field-error` element: the container it was appended to, and its text. */
  datatype ErrorEl = ErrorEl(container: nat, text: string)

  /**
   * The error display of one form: the `error` class of each field, and the
   * `.field-error` elements in document order.
   */
  datatype View = View(errorClass: seq<bool>, errors: seq<ErrorEl>)

  /** What a validation pass returns, and the display it leaves behind. */
  datatype Validation = Validation(ok: bool, view: View)

  /** The texts of the error elements in container `c`, in document order. */
  function Texts(errors: seq<ErrorEl>, c: nat): seq<string> {
    if |errors| == 0 then []
    else (if errors[0].container == c then [errors[0].text] else []) + Texts(errors[1..], c)
  }

  lemma {:induction false} TextsAppend(a: seq<ErrorEl>, b: seq<ErrorEl>, c: nat)
    ensures Texts(a + b, c) == Texts(a, c) + Texts(b, c)
    decreases |a|
  {
    if |a| == 0 {
      assert a + b == b;
    } else {
      assert (a + b)[1..] == a[1..] + b;
      TextsAppend(a[1..], b, c);
    }
  }

  /** The text list without its first entry (empty stays empty). */
  function Rest(t: seq<string>): seq<string> {
    if |t| == 0 then [] else t[1..]
  }

  // ---------------------------------------------------------------------
  // main.js: showFieldError, clearFieldError, validateForm, handleFormSubmit
  // ---------------------------------------------------------------------

  /*
   * `showFieldError` and `clearFieldError` each set a field's `error` class
   * and edit the error elements of the field's parent. The two effects are
   * independent, so the class part and the element part of a validation
   * pass are folded separately below. `parentNode.querySelector` finds the
   * parent's first error element in document order.
   */

  /**
   * The element part of `showFieldError`: the first error element of the
   * parent gets the message, or a new one is appended when it has none.
   */
  function ShowFieldError(errors: seq<ErrorEl>, parent: nat, message: string): (r: seq<ErrorEl>)
    decreases |errors|
  {
    if |errors| == 0 then [ErrorEl(parent, message)]
    else if errors[0].container == parent then [ErrorEl(parent, message)] + errors[1..]
    else [errors[0]] + ShowFieldError(errors[1..], parent, message)
  }

  /** The element part of `clearFieldError`: the parent's first error element is removed. */
  function ClearFieldError(errors: seq<ErrorEl>, parent: nat): (r: seq<ErrorEl>)
    decreases |errors|
  {
    if |errors| == 0 then []
    else if errors[0].container == parent then errors[1..]
    else [errors[0]] + ClearFieldError(errors[1..], parent)
  }

  /** Showing a message puts it first in the parent and leaves every other container as it was. */
  lemma {:induction false} ShowTexts(errors: seq<ErrorEl>, parent: nat, message: string, c: nat)
    ensures Texts(ShowFieldError(errors, parent, message), c)
            == if c == parent then [message] + Rest(Texts(errors, c)) else Texts(errors, c)
    decreases |errors|
  {
    if |errors| > 0 && errors[0].container != parent {
      var r := ShowFieldError(errors, parent, message);
      ShowTexts(errors[1..], parent, message, c);
      assert r[0] == errors[0] && r[1..] == ShowFieldError(errors[1..], parent, message);
    }
  }

  /** Clearing drops the parent's first text, keeps the rest, and leaves every other container as it was. */
  lemma {:induction false} ClearTexts(errors: seq<ErrorEl>, parent: nat, c: nat)
    ensures |ClearFieldError(errors, parent)| <= |errors|
    ensures Texts(ClearFieldError(errors, parent), c)
            == if c == parent then Rest(Texts(errors, c)) else Texts(errors, c)
    decreases |errors|
  {
    if |errors| > 0 && errors[0].container != parent {
      var r := ClearFieldError(errors, parent);
      ClearTexts(errors[1..], parent, c);
      assert r[0] == errors[0] && r[1..] == ClearFieldError(errors[1..], parent);
    }
  }

  function MainMessage(p: Problem): string {
    match p
    case Missing => "Field ini wajib diisi"
    case BadEmail => "Format email tidak valid"
  }

  /** The texts the shell leaves in a field's parent when that field is the last one handled there. */
  function MainVerdictText(f: Field, emailOk: string -> bool): seq<string> {
    match Check(f, emailOk)
    case None => []
    case Some(p) => [MainMessage(p)]
  }

  /** The shell leaves no text for a passing field, and otherwise the message for its problem. */
  lemma MainVerdictMeaning(f: Field, emailOk: string -> bool)
    ensures MainVerdictText(f, emailOk) == [] <==> Passes(f, emailOk)
    ensures MainVerdictText(f, emailOk) == ["Field ini wajib diisi"] <==> f.required && Blank(f.value)
    ensures MainVerdictText(f, emailOk) == ["Format email tidak valid"] <==> Check(f, emailOk) == Some(BadEmail)
  {
  }

  /** The `error` classes after the first `n` rounds of `validateForm` (only required fields are visited). */
  function MainClasses(fields: seq<Field>, emailOk: string -> bool, cls: seq<bool>, n: nat): (r: seq<bool>)
    requires n <= |fields| && |cls| == |fields|
    ensures |r| == |fields|
    decreases n
  {
    if n == 0 then cls
    else
      var prev := MainClasses(fields, emailOk, cls, n - 1);
      if fields[n - 1].required then prev[n - 1 := Check(fields[n - 1], emailOk).Some?] else prev
  }

  /** The element part of one round of `validateForm`, for field `f`. */
  function MainFieldErrors(errors: seq<ErrorEl>, f: Field, emailOk: string -> bool): seq<ErrorEl> {
    if !f.required then errors
    else match Check(f, emailOk)
      case None => ClearFieldError(errors, f.parent)
      case Some(p) => ShowFieldError(errors, f.parent, MainMessage(p))
  }

  /** The error elements after the first `n` rounds of `validateForm`. */
  function MainErrors(fields: seq<Field>, emailOk: string -> bool, errors: seq<ErrorEl>, n: nat): seq<ErrorEl>
    requires n <= |fields|
    decreases n
  {
    if n == 0 then errors
    else MainFieldErrors(MainErrors(fields, emailOk, errors, n - 1), fields[n - 1], emailOk)
  }

  /** After `n` rounds a visited required field has the `error` class iff it fails; other fields keep theirs. */
  lemma {:induction false} MainClassesMeaning(fields: seq<Field>, emailOk: string -> bool, cls: seq<bool>, n: nat, i: nat)
    requires n <= |fields| && |cls| == |fields| && i < |fields|
    ensures MainClasses(fields, emailOk, cls, n)[i]
            == if i < n && fields[i].required then !Passes(fields[i], emailOk) else cls[i]
    decreases n
  {
    if n > 0 {
      MainClassesMeaning(fields, emailOk, cls, n - 1, i);
    }
  }

  /** The round of a passing field never adds an error element. */
  lemma MainFieldErrorsPassing(errors: seq<ErrorEl>, f: Field, emailOk: string -> bool)
    requires Passes(f, emailOk)
    ensures |MainFieldErrors(errors, f, emailOk)| <= |errors|
  {
    assert Check(f, emailOk).None?;
    ClearTexts(errors, f.parent, 0);
  }

  /** A run over passing fields never adds an error element. */
  lemma {:induction false} MainErrorsPassing(fields: seq<Field>, emailOk: string -> bool, errors: seq<ErrorEl>, n: nat)
    requires n <= |fields|
    requires forall i :: 0 <= i < n ==> Passes(fields[i], emailOk)
    ensures |MainErrors(fields, emailOk, errors, n)| <= |errors|
    decreases n
  {
    if n > 0 {
      MainErrorsPassing(fields, emailOk, errors, n - 1);
      MainFieldErrorsPassing(MainErrors(fields, emailOk, errors, n - 1), fields[n - 1], emailOk);
    }
  }

  /** The last required field before `n` whose parent is `c`. */
  function LastRequiredIn(fields: seq<Field>, n: nat, c: nat): (r: Option<nat>)
    requires n <= |fields|
    ensures r.Some? ==> r.value < n
  {
    if n == 0 then None
    else if fields[n - 1].required && fields[n - 1].parent == c then Some(n - 1)
    else LastRequiredIn(fields, n - 1, c)
  }

  /** `LastRequiredIn` finds a required field under `c`, with none after it, and finds none only when there is none. */
  lemma {:induction false} LastRequiredInMeaning(fields: seq<Field>, n: nat, c: nat)
    requires n <= |fields|
    ensures var r := LastRequiredIn(fields, n, c);
            && (r.Some? ==> fields[r.value].required && fields[r.value].parent == c)
            && (r.Some? ==> forall j :: r.value < j < n ==> !(fields[j].required && fields[j].parent == c))
            && (r.None? ==> forall j :: 0 <= j < n ==> !(fields[j].required && fields[j].parent == c))
    decreases n
  {
    if n > 0 {
      LastRequiredInMeaning(fields, n - 1, c);
    }
  }

  /**
   * One round on a container holding at most one error element: the round
   * of a required field under it leaves that field's verdict, any other
   * round leaves the container alone.
   */
  lemma MainFieldErrorsTexts(errors: seq<ErrorEl>, f: Field, emailOk: string -> bool, c: nat)
    requires |Texts(errors, c)| <= 1
    ensures Texts(MainFieldErrors(errors, f, emailOk), c)
            == if f.required && f.parent == c then MainVerdictText(f, emailOk) else Texts(errors, c)
  {
    assert Rest(Texts(errors, c)) == [];
    if f.required {
      match Check(f, emailOk)
      case None => ClearTexts(errors, f.parent, c);
      case Some(p) => ShowTexts(errors, f.parent, MainMessage(p), c);
    }
  }

  /**
   * When a container starts with at most one error element, after the first
   * `n` rounds it holds exactly what the last required field handled there
   * left, and is untouched when no such field was handled.
   */
  lemma {:induction false} MainErrorsTexts(fields: seq<Field>, emailOk: string -> bool, errors: seq<ErrorEl>, n: nat, c: nat)
    requires n <= |fields| && |Texts(errors, c)| <= 1
    ensures Texts(MainErrors(fields, emailOk, errors, n), c)
            == match LastRequiredIn(fields, n, c)
               case None => Texts(errors, c)
               case Some(j) => MainVerdictText(fields[j], emailOk)
    decreases n
  {
    if n > 0 {
      MainErrorsTexts(fields, emailOk, errors, n - 1, c);
      var prev := MainErrors(fields, emailOk, errors, n - 1);
      assert |Texts(prev, c)| <= 1 by {
        match LastRequiredIn(fields, n - 1, c)
        case None =>
        case Some(j) => assert |MainVerdictText(fields[j], emailOk)| <= 1;
      }
      var f := fields[n - 1];
      MainFieldErrorsTexts(prev, f, emailOk, c);
      assert MainErrors(fields, emailOk, errors, n) == MainFieldErrors(prev, f, emailOk);
      if f.required && f.parent == c {
        assert LastRequiredIn(fields, n, c) == Some(n - 1);
      } else {
        assert LastRequiredIn(fields, n, c) == LastRequiredIn(fields, n - 1, c);
      }
    }
  }

  /**
   * `validateForm`: the result is true iff every field passes; each required
   * field carries the `error` class iff it fails, and other fields keep
   * theirs.
   */
  function ValidateForm(fields: seq<Field>, v: View): (r: Validation)
    requires |v.errorClass| == |fields|
    ensures r.ok <==> forall i :: 0 <= i < |fields| ==> Passes(fields[i], IsValidEmail)
    ensures |r.view.errorClass| == |fields|
    ensures forall i :: 0 <= i < |fields| ==>
              r.view.errorClass[i] == if fields[i].required then !Passes(fields[i], IsValidEmail) else v.errorClass[i]
    ensures r.ok ==> |r.view.errors| <= |v.errors|
  {
    var n := |fields|;
    var cls := MainClasses(fields, IsValidEmail, v.errorClass, n);
    var errors := MainErrors(fields, IsValidEmail, v.errors, n);
    assert forall i :: 0 <= i < n ==>
             cls[i] == if fields[i].required then !Passes(fields[i], IsValidEmail) else v.errorClass[i] by {
      forall i | 0 <= i < n
        ensures cls[i] == if fields[i].required then !Passes(fields[i], IsValidEmail) else v.errorClass[i]
      {
        MainClassesMeaning(fields, IsValidEmail, v.errorClass, n, i);
      }
    }
    var ok := AllPass(fields, IsValidEmail);
    if ok then MainErrorsPassing(fields, IsValidEmail, v.errors, n); Validation(ok, View(cls, errors))
    else Validation(ok, View(cls, errors))
  }

  /**
   * Error messages are kept per parent element, not per field: the last
   * required field under a parent decides its message, "Field ini wajib
   * diisi" when blank, "Format email tidak valid" when the address is
   * rejected, none when it passes.
   */
  lemma SharedParentLastFieldDecides(fields: seq<Field>, v: View, c: nat)
    requires |v.errorClass| == |fields| && |Texts(v.errors, c)| <= 1
    ensures var t := Texts(ValidateForm(fields, v).view.errors, c);
            match LastRequiredIn(fields, |fields|, c)
            case None => t == Texts(v.errors, c)
            case Some(j) =>
              && (t == [] <==> Passes(fields[j], IsValidEmail))
              && (t == ["Field ini wajib diisi"] <==> Blank(fields[j].value))
              && (t == ["Format email tidak valid"] <==> Check(fields[j], IsValidEmail) == Some(BadEmail))
  {
    MainErrorsTexts(fields, IsValidEmail, v.errors, |fields|, c);
    LastRequiredInMeaning(fields, |fields|, c);
    match LastRequiredIn(fields, |fields|, c)
    case None =>
    case Some(j) => MainVerdictMeaning(fields[j], IsValidEmail);
  }

  /**
   * A blank required field followed by a filled one under the same parent:
   * the form is rejected, yet no message is left, because clearing the
   * second field removes the first one's message.
   */
  lemma SharedParentHidesEarlierError()
    ensures var fields := [Field("", "text", true, 0, Some(0)), Field("Budi", "text", true, 0, Some(0))];
            var r := ValidateForm(fields, View([false, false], []));
            && !r.ok
            && r.view.errorClass == [true, false]
            && Texts(r.view.errors, 0) == []
  {
    var fields := [Field("", "text", true, 0, Some(0)), Field("Budi", "text", true, 0, Some(0))];
    var v := View([false, false], []);
    assert fields[1].value[0] == 'B';
    assert Check(fields[1], IsValidEmail) == None;
    assert LastRequiredIn(fields, 2, 0) == Some(1);
    MainErrorsTexts(fields, IsValidEmail, v.errors, 2, 0);
    assert ValidateForm(fields, v).view.errorClass == [true, false];
  }

  /** `handleFormSubmit`: only a form element is handled, and only a valid one is submitted. */
  function HandleFormSubmit(isForm: bool, fields: seq<Field>, v: View): (r: (View, bool))
    requires |v.errorClass| == |fields|
    ensures r.1 <==> isForm && forall i :: 0 <= i < |fields| ==> Passes(fields[i], IsValidEmail)
    ensures !isForm ==> r.0 == v
  {
    if isForm then
      var res := ValidateForm(fields, v);
      (res.view, res.ok)
    else (v, false)
  }

  // ---------------------------------------------------------------------
  // components/forms.js: validate, handleSubmit, isValidEmail
  // ---------------------------------------------------------------------

  /**
   * The address test of the forms component: a pattern `rfc`
   * (not modelled) applied to the lower-cased address.
   */
  function ComponentEmailOk(rfc: string -> bool, s: string): bool {
    rfc(Lower(s))
  }

  /** The component's test as a value, for the validation functions. */
  function ComponentTest(rfc: string -> bool): string -> bool {
    s => ComponentEmailOk(rfc, s)
  }

  /** The component's test ignores ASCII letter case. */
  lemma ComponentEmailIgnoresCase(rfc: string -> bool, s: string, t: string)
    requires Lower(s) == Lower(t)
    ensures ComponentEmailOk(rfc, s) == ComponentEmailOk(rfc, t)
  {
  }

  /** Lower-casing the address first never changes the component's verdict. */
  lemma ComponentEmailLowerInvariant(rfc: string -> bool, s: string)
    ensures ComponentEmailOk(rfc, Lower(s)) == ComponentEmailOk(rfc, s)
  {
    LowerIdempotent(s);
  }

  function ComponentMessage(p: Problem): string {
    match p
    case Missing => "Kolom ini wajib diisi."
    case BadEmail => "Format email tidak valid."
  }

  /** The message elements the component appends to group `g` for field `f`. */
  function ComponentFieldTexts(f: Field, emailOk: string -> bool, g: nat): seq<string> {
    if f.group != Some(g) then []
    else match Check(f, emailOk)
      case None => []
      case Some(p) => [ComponentMessage(p)]
  }

  /** Outside its group a field adds nothing; inside, nothing when it passes and otherwise the message for its problem. */
  lemma ComponentFieldMeaning(f: Field, emailOk: string -> bool, g: nat)
    ensures f.group != Some(g) ==> ComponentFieldTexts(f, emailOk, g) == []
    ensures f.group == Some(g) ==>
              var t := ComponentFieldTexts(f, emailOk, g);
              && (t == [] <==> Passes(f, emailOk))
              && (t == ["Kolom ini wajib diisi."] <==> f.required && Blank(f.value))
              && (t == ["Format email tidak valid."] <==> Check(f, emailOk) == Some(BadEmail))
  {
  }

  /** Reference definition: the component's messages in group `g` for the first `n` fields, one per failing field, in document order. */
  function GroupMessagesUpTo(fields: seq<Field>, emailOk: string -> bool, g: nat, n: nat): seq<string>
    requires n <= |fields|
    decreases n
  {
    if n == 0 then []
    else GroupMessagesUpTo(fields, emailOk, g, n - 1) + ComponentFieldTexts(fields[n - 1], emailOk, g)
  }

  /** The component's messages in group `g` for the whole form. */
  function GroupMessages(fields: seq<Field>, emailOk: string -> bool, g: nat): seq<string> {
    GroupMessagesUpTo(fields, emailOk, g, |fields|)
  }

  /** The `error` classes after the first `n` rounds of the component's `forEach`, from the cleared classes `cls`. */
  function ComponentClasses(fields: seq<Field>, emailOk: string -> bool, cls: seq<bool>, n: nat): (r: seq<bool>)
    requires n <= |fields| && |cls| == |fields|
    ensures |r| == |fields|
    decreases n
  {
    if n == 0 then cls
    else
      var prev := ComponentClasses(fields, emailOk, cls, n - 1);
      if Check(fields[n - 1], emailOk).Some? then prev[n - 1 := true] else prev
  }

  /** The element part of one round of the component's `forEach`, for field `f`. */
  function ComponentFieldErrors(errors: seq<ErrorEl>, f: Field, emailOk: string -> bool): seq<ErrorEl> {
    match Check(f, emailOk)
    case None => errors
    case Some(p) =>
      match f.group
      case None => errors
      case Some(g) => errors + [ErrorEl(g, ComponentMessage(p))]
  }

  /** The message elements after the first `n` rounds of the component's `forEach`, appended to the groups. */
  function ComponentErrors(fields: seq<Field>, emailOk: string -> bool, n: nat): seq<ErrorEl>
    requires n <= |fields|
    decreases n
  {
    if n == 0 then []
    else ComponentFieldErrors(ComponentErrors(fields, emailOk, n - 1), fields[n - 1], emailOk)
  }

  /** One round adds to each group exactly the field's own message texts. */
  lemma ComponentFieldErrorsTexts(errors: seq<ErrorEl>, f: Field, emailOk: string -> bool, g: nat)
    ensures Texts(ComponentFieldErrors(errors, f, emailOk), g) == Texts(errors, g) + ComponentFieldTexts(f, emailOk, g)
  {
    match Check(f, emailOk)
    case None =>
    case Some(p) =>
      match f.group
      case None =>
      case Some(h) => TextsAppend(errors, [ErrorEl(h, ComponentMessage(p))], g);
  }

  /** After `n` rounds each visited failing field has gained the `error` class; the others keep theirs. */
  lemma {:induction false} ComponentClassesMeaning(fields: seq<Field>, emailOk: string -> bool, cls: seq<bool>, n: nat, i: nat)
    requires n <= |fields| && |cls| == |fields| && i < |fields|
    ensures ComponentClasses(fields, emailOk, cls, n)[i] == if i < n then cls[i] || !Passes(fields[i], emailOk) else cls[i]
    decreases n
  {
    if n > 0 {
      ComponentClassesMeaning(fields, emailOk, cls, n - 1, i);
    }
  }

  /** A run over passing fields appends nothing. */
  lemma {:induction false} ComponentErrorsPassing(fields: seq<Field>, emailOk: string -> bool, n: nat)
    requires n <= |fields|
    requires forall i :: 0 <= i < n ==> Passes(fields[i], emailOk)
    ensures ComponentErrors(fields, emailOk, n) == []
    decreases n
  {
    if n > 0 {
      ComponentErrorsPassing(fields, emailOk, n - 1);
      assert Check(fields[n - 1], emailOk).None?;
    }
  }

  /** After the first `n` rounds each group holds the messages of its failing fields, in order. */
  lemma {:induction false} ComponentErrorsTexts(fields: seq<Field>, emailOk: string -> bool, n: nat, g: nat)
    requires n <= |fields|
    ensures Texts(ComponentErrors(fields, emailOk, n), g) == GroupMessagesUpTo(fields, emailOk, g, n)
    decreases n
  {
    if n > 0 {
      ComponentErrorsTexts(fields, emailOk, n - 1, g);
      ComponentFieldErrorsTexts(ComponentErrors(fields, emailOk, n - 1), fields[n - 1], emailOk, g);
    }
  }

  /**
   * `validate`: every earlier `.field-error` and `error` class of the form is
   * removed first; then each failing required field gets the `error` class
   * and, inside a `.form-group`, a message element appended to the group.
   */
  function Validate(fields: seq<Field>, v: View, rfc: string -> bool): (r: Validation)
    requires |v.errorClass| == |fields|
    ensures r.ok <==> forall i :: 0 <= i < |fields| ==> Passes(fields[i], ComponentTest(rfc))
    ensures |r.view.errorClass| == |fields|
    ensures forall i :: 0 <= i < |fields| ==> (r.view.errorClass[i] <==> !Passes(fields[i], ComponentTest(rfc)))
    ensures r.ok <==> r.view.errors == [] && forall i :: 0 <= i < |fields| ==> !r.view.errorClass[i]
  {
    var n := |fields|;
    var test := ComponentTest(rfc);
    var cleared := seq(n, _ => false);
    var cls := ComponentClasses(fields, test, cleared, n);
    var errors := ComponentErrors(fields, test, n);
    assert forall i :: 0 <= i < n ==> (cls[i] <==> !Passes(fields[i], test)) by {
      forall i | 0 <= i < n
        ensures cls[i] <==> !Passes(fields[i], test)
      {
        ComponentClassesMeaning(fields, test, cleared, n, i);
      }
    }
    var ok := AllPass(fields, test);
    if ok then ComponentErrorsPassing(fields, test, n); Validation(ok, View(cls, errors))
    else Validation(ok, View(cls, errors))
  }

  /** Each group ends up with one message per failing field in it, in document order, whatever was shown before. */
  lemma ValidateGroupMessages(fields: seq<Field>, v: View, rfc: string -> bool, g: nat)
    requires |v.errorClass| == |fields|
    ensures Texts(Validate(fields, v, rfc).view.errors, g) == GroupMessages(fields, ComponentTest(rfc), g)
  {
    ComponentErrorsTexts(fields, ComponentTest(rfc), |fields|, g);
  }

  /** The component's validation does not depend on the errors left by an earlier one. */
  lemma ValidateForgetsPriorErrors(fields: seq<Field>, v1: View, v2: View, rfc: string -> bool)
    requires |v1.errorClass| == |fields| && |v2.errorClass| == |fields|
    ensures Validate(fields, v1, rfc) == Validate(fields, v2, rfc)
  {
  }

  /** `handleSubmit`: `submit` runs exactly when `validate` returned true, which is when no error is left. */
  function HandleSubmit(fields: seq<Field>, v: View, rfc: string -> bool): (r: (View, bool))
    requires |v.errorClass| == |fields|
    ensures |r.0.errorClass| == |fields|
    ensures r.1 <==> forall i :: 0 <= i < |fields| ==> Passes(fields[i], ComponentTest(rfc))
    ensures r.1 <==> r.0.errors == [] && forall i :: 0 <= i < |fields| ==> !r.0.errorClass[i]
  {
    var res := Validate(fields, v, rfc);
    (res.view, res.ok)
  }

  // ---------------------------------------------------------------------
  // One submit event reaching both listeners
  // ---------------------------------------------------------------------

  /** The display after a submit event, and how many times the form was sent. */
  datatype SubmitOutcome = SubmitOutcome(view: View, submissions: nat)

  /**
   * A submit event on a form: the component's listener on the form runs
   * first, then the shell's listener on the document; the component only
   * prevents the default action, so the event still bubbles to the shell.
   */
  function SubmitEvent(fields: seq<Field>, v: View, rfc: string -> bool): (r: SubmitOutcome)
    requires |v.errorClass| == |fields|
    ensures r.submissions
            == (if forall i :: 0 <= i < |fields| ==> Passes(fields[i], ComponentTest(rfc)) then 1 else 0)
             + (if forall i :: 0 <= i < |fields| ==> Passes(fields[i], IsValidEmail) then 1 else 0)
  {
    var (v1, sent1) := HandleSubmit(fields, v, rfc);
    var (v2, sent2) := HandleFormSubmit(true, fields, v1);
    SubmitOutcome(v2, (if sent1 then 1 else 0) + (if sent2 then 1 else 0))
  }

  /** A form both validators accept is sent twice and left without any error. */
  lemma ValidFormSentTwice(fields: seq<Field>, v: View, rfc: string -> bool)
    requires |v.errorClass| == |fields|
    requires forall i :: 0 <= i < |fields| ==> Passes(fields[i], ComponentTest(rfc))
    requires forall i :: 0 <= i < |fields| ==> Passes(fields[i], IsValidEmail)
    ensures var r := SubmitEvent(fields, v, rfc);
            && r.submissions == 2
            && r.view.errors == []
            && forall i :: 0 <= i < |r.view.errorClass| ==> !r.view.errorClass[i]
  {
  }

  /**
   * Where the component left at most one message in a container, the shell's
   * pass replaces it: the last required field whose parent is that container
   * decides the final text, in the shell's wording.
   */
  lemma {:induction false} ShellOverridesComponent(fields: seq<Field>, v: View, rfc: string -> bool, c: nat)
    requires |v.errorClass| == |fields|
    requires |GroupMessages(fields, ComponentTest(rfc), c)| <= 1
    ensures Texts(SubmitEvent(fields, v, rfc).view.errors, c)
            == match LastRequiredIn(fields, |fields|, c)
               case None => GroupMessages(fields, ComponentTest(rfc), c)
               case Some(j) => MainVerdictText(fields[j], IsValidEmail)
  {
    var v1 := HandleSubmit(fields, v, rfc).0;
    ValidateGroupMessages(fields, v, rfc, c);
    MainErrorsTexts(fields, IsValidEmail, v1.errors, |fields|, c);
  }

  /**
   * A single blank required field in its `.form-group`: the form is not sent,
   * and the component's "Kolom ini wajib diisi." is overwritten by the
   * shell's "Field ini wajib diisi".
   */
  lemma BlankFieldShowsShellMessage(rfc: string -> bool)
    ensures var r := SubmitEvent([Field("", "text", true, 0, Some(0))], View([false], []), rfc);
            && r.submissions == 0
            && Texts(r.view.errors, 0) == ["Field ini wajib diisi"]
  {
    var fields := [Field("", "text", true, 0, Some(0))];
    assert Blank(fields[0].value);
    assert ComponentFieldTexts(fields[0], ComponentTest(rfc), 0) == ["Kolom ini wajib diisi."];
    assert GroupMessagesUpTo(fields, ComponentTest(rfc), 0, 0) == [];
    assert GroupMessages(fields, ComponentTest(rfc), 0) == ["Kolom ini wajib diisi."];
    assert LastRequiredIn(fields, 1, 0) == Some(0);
    ShellOverridesComponent(fields, View([false], []), rfc, 0);
  }
}

=== FILE: landing.dfy ===
/**
 * The standalone script main.js of the landing page: scroll-dependent
 * classes, in-page anchor scrolling, and the once-only statistics counters.
 */
module Landing {
  import opened Wrappers
  import opened Text
  import Navbar

  /** Past this many pixels the page counts as scrolled. */
  const ScrollThreshold := 50

  /** The navbar's `scrolled` class and the back-to-top button's `visible` class. */
  datatype ScrollClasses = ScrollClasses(navbarScrolled: bool, scrollTopVisible: bool)

  /** The scroll listener: both classes follow the same threshold, so they are always equal. */
  function OnScroll(y: int): (r: ScrollClasses)
    ensures r.navbarScrolled == r.scrollTopVisible
    ensures r.navbarScrolled <==> y > ScrollThreshold
  {
    var past := y > ScrollThreshold;
    ScrollClasses(past, past)
  }

  /** Anchors scroll to this many pixels above their target. */
  const AnchorOffset := 70

  /** What a click on an in-page anchor does. */
  datatype AnchorAction = Ignored | Prevented(scrollTo: Option<int>)

  /**
   * The anchor listener, attached to every `a[href^="#"]`: "#" alone is left
   * to the browser; any longer href suppresses navigation and, when the
   * target exists, scrolls to 70px above it.
   */
  function AnchorClick(href: string, tops: map<string, int>): (r: AnchorAction)
    requires StartsWith(href, "#")
    ensures r.Ignored? <==> |href| <= 1
    ensures r.Prevented? && r.scrollTo.Some? <==> |href| > 1 && href[1..] in tops
    ensures r.Prevented? && r.scrollTo.Some? ==> r.scrollTo.value == tops[href[1..]] - AnchorOffset
  {
    if |href| <= 1 then Ignored
    else if href[1..] in tops then Prevented(Some(tops[href[1..]] - AnchorOffset))
    else Prevented(None)
  }

  /**
   * The landing page's anchors and the navbar's smooth-scroll links agree on
   * when to scroll and differ only in the offset: 70px here against 90px.
   */
  lemma AnchorMatchesNavbarScroll(href: string, doc: map<string, int>)
    requires StartsWith(href, "#") && |href| > 1
    ensures AnchorClick(href, doc).Prevented?
    ensures AnchorClick(href, doc).scrollTo.Some? <==> Navbar.SmoothScrollClick(href, doc).Some?
    ensures AnchorClick(href, doc).scrollTo.Some? ==>
              AnchorClick(href, doc).scrollTo.value == Navbar.SmoothScrollClick(href, doc).value + 20
  {
  }

  /** Counters aim to finish in about this many steps. */
  const CounterSteps := 200

  /** `Math.ceil(a / b)` for a positive divisor. */
  function CeilDiv(a: int, b: int): (q: int)
    requires b > 0
    ensures q * b >= a && (q - 1) * b < a
  {
    (a + b - 1) / b
  }

  /** `Math.max(1, Math.ceil(target / 200))`: a positive step that reaches the target within 200 steps. */
  function Increment(target: int): (inc: int)
    ensures inc >= 1
    ensures inc * CounterSteps >= target
    ensures inc == 1 || (inc - 1) * CounterSteps < target
  {
    var c := CeilDiv(target, CounterSteps);
    if c > 1 then c else 1
  }

  /**
   * The values `updateCounter` writes, starting from `count`: every step
   * adds `inc`; a value still below the target is shown and the counter
   * continues, otherwise the target itself is shown and the counter stops.
   */
  function Frames(count: int, inc: int, target: int): (shown: seq<int>)
    requires inc >= 1
    ensures |shown| >= 1 && shown[|shown| - 1] == target
    ensures forall k :: 0 <= k < |shown| - 1 ==> count < shown[k] < target
    ensures forall k :: 0 <= k < |shown| - 1 ==> shown[k] < shown[k + 1]
    ensures |shown| == 1 || (|shown| - 1) * inc < target - count
    ensures forall k :: 0 <= k < |shown| - 1 ==> shown[k] == count + (k + 1) * inc
    ensures target <= count + |shown| * inc
    decreases target - count
  {
    var next := count + inc;
    if next < target then
      var rest := Frames(next, inc, target);
      var shown := [next] + rest;
      forall k | 1 <= k < |shown| - 1
        ensures shown[k] == count + (k + 1) * inc
      {
        assert shown[k] == rest[k - 1] == next + k * inc;
        assert (k + 1) * inc == k * inc + inc;
      }
      assert (|rest| + 1) * inc == |rest| * inc + inc;
      assert |rest| > 1 ==> |rest| * inc == (|rest| - 1) * inc + inc;
      shown
    else [target]
  }

  /** A counter starting from 0 shows at most 200 values, the last one being its target. */
  lemma {:induction false} CounterFinishesWithinSteps(target: int)
    ensures var shown := Frames(0, Increment(target), target);
            |shown| <= CounterSteps && shown[|shown| - 1] == target
  {
    var inc := Increment(target);
    var shown := Frames(0, inc, target);
    if |shown| > 1 {
      var m := |shown| - 1;
      assert m * inc < target <= inc * CounterSteps;
      FactorBelow(m, inc, CounterSteps);
    }
  }

  /** From `m * inc < c * inc` with a positive `inc`, `m < c`. */
  lemma FactorBelow(m: int, inc: int, c: int)
    requires inc >= 1 && m * inc < c * inc
    ensures m < c
  {
    assert (c - m) * inc == c * inc - m * inc;
  }

  /** The once-only flag and the values each counter went through. */
  datatype Counters = Counters(animated: bool, shown: seq<seq<int>>)

  /** `animateCounters`: the first call animates every counter from 0; later calls return at once. */
  function AnimateCounters(c: Counters, targets: seq<int>): (r: Counters)
    ensures r.animated
    ensures c.animated ==> r == c
    ensures !c.animated ==>
              && |r.shown| == |targets|
              && forall i :: 0 <= i < |targets| ==> |r.shown[i]| > 0 && r.shown[i][|r.shown[i]| - 1] == targets[i]
    ensures !c.animated ==>
              forall i, k :: 0 <= i < |targets| && 0 <= k < |r.shown[i]| - 1 ==> r.shown[i][k] == (k + 1) * Increment(targets[i])
    ensures !c.animated ==>
              forall i :: 0 <= i < |targets| ==>
                && (|r.shown[i]| == 1 || (|r.shown[i]| - 1) * Increment(targets[i]) < targets[i])
                && targets[i] <= |r.shown[i]| * Increment(targets[i])
    ensures !c.animated ==>
              forall i :: 0 <= i < |targets| ==> r.shown[i] == Frames(0, Increment(targets[i]), targets[i])
  {
    if c.animated then c
    else Counters(true, seq(|targets|, i requires 0 <= i < |targets| => Frames(0, Increment(targets[i]), targets[i])))
  }

  /** However often the observer fires, the counters run once. */
  lemma CountersRunOnce(targets: seq<int>, again: seq<int>)
    ensures var first := AnimateCounters(Counters(false, []), targets);
            AnimateCounters(first, again) == first
  {
  }
}

=== FILE: modal.dfy ===
/**
 * The modal component of assets/js/components/modal.js: the set of elements
 * carrying the `active` class, the body scroll lock, and the click, Escape
 * and global `openModal` / `closeModal` entry points.
 */
module Modal {
  import opened Wrappers

  /** The elements with an id, and the `.modal` elements in document order. */
  datatype ModalDoc = ModalDoc(ids: set<string>, modals: seq<string>)

  /** Every modal is an element with an id. */
  predicate WellFormed(doc: ModalDoc) {
    forall k :: 0 <= k < |doc.modals| ==> doc.modals[k] in doc.ids
  }

  /** The elements opened through the component, and `overflow: hidden` on the body. */
  datatype ModalState = ModalState(active: set<string>, bodyLocked: bool)

  /** What `document.querySelectorAll('.modal.active')` finds. */
  function OpenModals(doc: ModalDoc, active: set<string>): set<string> {
    set k | 0 <= k < |doc.modals| && doc.modals[k] in active :: doc.modals[k]
  }

  /** The body is locked exactly while some modal is open. */
  predicate LockMatches(doc: ModalDoc, st: ModalState) {
    st.bodyLocked <==> OpenModals(doc, st.active) != {}
  }

  /** `open(modalId)`: an existing element becomes active and the body is locked; an unknown id does nothing. */
  function Open(doc: ModalDoc, st: ModalState, id: string): (r: ModalState)
    ensures id in doc.ids ==> r.active == st.active + {id} && r.bodyLocked
    ensures id !in doc.ids ==> r == st
  {
    if id in doc.ids then ModalState(st.active + {id}, true) else st
  }

  /**
   * `close(modal)` for an element found by id: only that element loses
   * `active`; the body lock is lifted only when no modal is left open.
   */
  function Close(doc: ModalDoc, st: ModalState, id: string): (r: ModalState)
    ensures id !in doc.ids ==> r == st
    ensures id in doc.ids ==> r.active == st.active - {id}
    ensures id in doc.ids ==> (r.bodyLocked <==> st.bodyLocked && OpenModals(doc, r.active) != {})
  {
    if id !in doc.ids then st
    else
      var active := st.active - {id};
      ModalState(active, if OpenModals(doc, active) == {} then false else st.bodyLocked)
  }

  /** The first open modal in document order. */
  function FirstOpen(modals: seq<string>, active: set<string>): (r: Option<string>)
    ensures r.Some? ==> exists k :: 0 <= k < |modals| && modals[k] == r.value && modals[k] in active &&
                                    forall j :: 0 <= j < k ==> modals[j] !in active
    ensures r.None? ==> forall k :: 0 <= k < |modals| ==> modals[k] !in active
  {
    if |modals| == 0 then None
    else if modals[0] in active then Some(modals[0])
    else
      var rest := FirstOpen(modals[1..], active);
      if rest.Some? then
        var k :| 0 <= k < |modals[1..]| && modals[1..][k] == rest.value && modals[1..][k] in active &&
                 forall j :: 0 <= j < k ==> modals[1..][j] !in active;
        assert modals[k + 1] == rest.value;
        rest
      else rest
  }

  /** The Escape listener: close the first open modal, if any. */
  function Escape(doc: ModalDoc, st: ModalState, key: string): (r: ModalState)
    requires WellFormed(doc)
    ensures key != "Escape" || OpenModals(doc, st.active) == {} ==> r == st
    ensures key == "Escape" && OpenModals(doc, st.active) != {} ==>
              exists m :: m in OpenModals(doc, st.active) && r == Close(doc, st, m)
    ensures key == "Escape" && OpenModals(doc, st.active) != {} ==>
              FirstOpen(doc.modals, st.active).Some? && r == Close(doc, st, FirstOpen(doc.modals, st.active).value)
  {
    if key != "Escape" then st
    else match FirstOpen(doc.modals, st.active)
      case None =>
        assert OpenModals(doc, st.active) == {};
        st
      case Some(m) =>
        var k :| 0 <= k < |doc.modals| && doc.modals[k] == m && doc.modals[k] in st.active;
        assert m in OpenModals(doc, st.active);
        Close(doc, st, m)
  }

  /** One Escape closes exactly one open modal. */
  lemma EscapeClosesOne(doc: ModalDoc, st: ModalState)
    requires WellFormed(doc)
    requires OpenModals(doc, st.active) != {}
    ensures exists m :: m in OpenModals(doc, st.active) &&
                        OpenModals(doc, Escape(doc, st, "Escape").active) == OpenModals(doc, st.active) - {m}
  {
    var m :| m in OpenModals(doc, st.active) && Escape(doc, st, "Escape") == Close(doc, st, m);
    var after := Escape(doc, st, "Escape").active;
    assert after == st.active - {m};
    assert OpenModals(doc, after) == OpenModals(doc, st.active) - {m};
  }

  /** Opening a modal and closing anything keep the body lock in step with the open modals. */
  lemma {:induction false} LockFollowsOpenModals(doc: ModalDoc, st: ModalState, m: string, x: string)
    requires WellFormed(doc) && LockMatches(doc, st)
    requires m in doc.modals
    ensures LockMatches(doc, Open(doc, st, m))
    ensures LockMatches(doc, Close(doc, st, x))
  {
    var k :| 0 <= k < |doc.modals| && doc.modals[k] == m;
    assert m in OpenModals(doc, Open(doc, st, m).active);
    if x in doc.ids {
      assert OpenModals(doc, st.active - {x}) <= OpenModals(doc, st.active);
    }
  }

  /** What one click on the document reached. */
  datatype ModalClick = ModalClick(
    openTrigger: Option<string>,   // `data-modal-open` of the closest open trigger
    closeTriggerIn: Option<string>, // the modal enclosing the closest close trigger
    overlay: Option<string>)        // the click landed on a modal element itself

  /** The three click listeners in registration order: open trigger, close trigger, overlay. */
  function HandleClick(doc: ModalDoc, st: ModalState, c: ModalClick): (r: ModalState)
    ensures c.openTrigger.None? && c.closeTriggerIn.None? && c.overlay.None? ==> r == st
    ensures c.openTrigger.Some? && c.closeTriggerIn.None? && c.overlay.None? ==> r == Open(doc, st, c.openTrigger.value)
    ensures c.openTrigger.None? && c.closeTriggerIn.None? && c.overlay.Some? ==> r == Close(doc, st, c.overlay.value)
    ensures c.openTrigger.None? && c.closeTriggerIn.Some? && c.overlay.None? ==> r == Close(doc, st, c.closeTriggerIn.value)
  {
    var s1 := if c.openTrigger.Some? then Open(doc, st, c.openTrigger.value) else st;
    var s2 := if c.closeTriggerIn.Some? then Close(doc, s1, c.closeTriggerIn.value) else s1;
    if c.overlay.Some? then Close(doc, s2, c.overlay.value) else s2
  }

  /** `window.openModal(id)`: the component opens "modal-" + id. */
  function OpenModal(doc: ModalDoc, st: ModalState, id: string): (r: ModalState)
    ensures "modal-" + id in doc.ids ==> r.active == st.active + {"modal-" + id} && r.bodyLocked
    ensures "modal-" + id !in doc.ids ==> r == st
  {
    Open(doc, st, "modal-" + id)
  }

  /** `window.closeModal(id)`'s lookup: "modal-" + id first, then id itself. */
  function ResolveModal(doc: ModalDoc, id: string): (r: Option<string>)
    ensures "modal-" + id in doc.ids ==> r == Some("modal-" + id)
    ensures "modal-" + id !in doc.ids && id in doc.ids ==> r == Some(id)
    ensures r.None? <==> "modal-" + id !in doc.ids && id !in doc.ids
  {
    if "modal-" + id in doc.ids then Some("modal-" + id)
    else if id in doc.ids then Some(id)
    else None
  }

  /** `window.closeModal(id)`: close what the lookup found; nothing when it found nothing. */
  function CloseModal(doc: ModalDoc, st: ModalState, id: string): (r: ModalState)
    ensures ResolveModal(doc, id).None? ==> r == st
    ensures ResolveModal(doc, id).Some? ==> r.active == st.active - {ResolveModal(doc, id).value}
    ensures ResolveModal(doc, id).Some? ==> (r.bodyLocked <==> st.bodyLocked && OpenModals(doc, r.active) != {})
    ensures ResolveModal(doc, id).Some? ==> r == Close(doc, st, ResolveModal(doc, id).value)
  {
    match ResolveModal(doc, id)
    case None => st
    case Some(m) => Close(doc, st, m)
  }

  /** The global pair round-trips: closing what `openModal` opened removes it again. */
  lemma OpenThenCloseModal(doc: ModalDoc, st: ModalState, id: string)
    requires "modal-" + id in doc.ids && "modal-" + id !in st.active
    ensures CloseModal(doc, OpenModal(doc, st, id), id).active == st.active
  {
  }
}

=== FILE: navbar.dfy ===
/**
 * The navbar component of assets/js/components/navbar.js: the mobile-menu
 * state machine, navigation-link clicks, the edge-triggered "scrolled"
 * class, scroll-driven link highlighting and keyboard focus movement.
 */
module Navbar {
  import opened Wrappers
  import opened Page
  import opened Text
  import ActiveSection

  // ---------------------------------------------------------------------
  // Mobile menu
  // ---------------------------------------------------------------------

  /**
   * `state.isOpen` together with the marks opening and closing write:
   * the `active` class of the menu panel and toggle button, the navbar's
   * `menu-open` class, and `overflow: hidden` on the body.
   */
  datatype Menu = Menu(isOpen: bool, panelShown: bool, menuOpenClass: bool, bodyLocked: bool)

  /** The marks agree with the flag. */
  predicate Consistent(m: Menu) {
    m.panelShown == m.isOpen && m.menuOpenClass == m.isOpen && m.bodyLocked == m.isOpen
  }

  /** The menu at page load. */
  const Closed := Menu(false, false, false, false)

  /** `openMobileMenu`. */
  function Open(m: Menu): (r: Menu)
    ensures r.isOpen && Consistent(r)
  {
    Menu(true, true, true, true)
  }

  /** `closeMobileMenu`. */
  function Close(m: Menu): (r: Menu)
    ensures !r.isOpen && Consistent(r)
  {
    Closed
  }

  /** `toggleMobileMenu`: flip the flag, then open or close to match it. */
  function Toggle(m: Menu): (r: Menu)
    ensures r.isOpen == !m.isOpen
    ensures Consistent(r)
  {
    var flipped := m.(isOpen := !m.isOpen);
    if flipped.isOpen then Open(flipped) else Close(flipped)
  }

  /** Toggling twice from a consistent state comes back to it. */
  lemma ToggleTwice(m: Menu)
    requires Consistent(m)
    ensures Toggle(Toggle(m)) == m
  {
  }

  /** `handleEscapeKey`: Escape closes an open menu; anything else changes nothing. */
  function Escape(m: Menu, key: string): (r: Menu)
    ensures r.isOpen <==> m.isOpen && key != "Escape"
    ensures !m.isOpen || key != "Escape" ==> r == m
    ensures m.isOpen && key == "Escape" ==> r == Close(m)
    ensures Consistent(m) ==> Consistent(r)
  {
    if key == "Escape" && m.isOpen then Close(m) else m
  }

  /**
   * Opening binds a fresh copy of the Escape listener and closing never
   * removes it, so after several openings one key press runs the handler
   * `copies` times in a row.
   */
  function EscapeListeners(m: Menu, key: string, copies: nat): Menu
    decreases copies
  {
    if copies == 0 then m else EscapeListeners(Escape(m, key), key, copies - 1)
  }

  /** The leaked listeners are harmless: any positive number of copies acts like one. */
  lemma {:induction false} LeakedEscapeListenersAreHarmless(m: Menu, key: string, copies: nat)
    requires copies > 0
    ensures EscapeListeners(m, key, copies) == Escape(m, key)
    decreases copies
  {
    if copies > 1 {
      var once := Escape(m, key);
      assert Escape(once, key) == once;
      LeakedEscapeListenersAreHarmless(once, key, copies - 1);
    }
  }

  /** The document click listener: a click outside the navbar closes an open menu. */
  function DocumentClick(m: Menu, insideNav: bool): (r: Menu)
    ensures r.isOpen <==> m.isOpen && insideNav
    ensures !m.isOpen || insideNav ==> r == m
    ensures m.isOpen && !insideNav ==> r == Close(m)
    ensures Consistent(m) ==> Consistent(r)
  {
    if m.isOpen && !insideNav then Close(m) else m
  }

  // ---------------------------------------------------------------------
  // Navigation-link clicks
  // ---------------------------------------------------------------------

  /** How `handleNavClick` classifies an href. */
  datatype HrefKind = SamePage(target: string) | OtherPage | External

  function Kind(href: string): (k: HrefKind)
    ensures k.SamePage? <==> StartsWith(href, "#")
    ensures k.SamePage? ==> "#" + k.target == href
    ensures k.External? <==> !StartsWith(href, "#") && StartsWith(href, "http")
  {
    if StartsWith(href, "#") then SamePage(href[1..])
    else if StartsWith(href, "http") then External
    else OtherPage
  }

  /** `setActiveLink(link)`: every link loses `active`, then link `i` gains it. */
  function SetActiveLink(links: seq<NavLink>, i: nat): (r: seq<NavLink>)
    requires i < |links|
    ensures SameLinksButActive(links, r)
    ensures ActiveIndices(r) == {i}
  {
    seq(|links|, j requires 0 <= j < |links| => links[j].(active := j == i))
  }

  /** What one call of `handleNavClick` leaves behind. */
  datatype NavClickResult = NavClickResult(menu: Menu, links: seq<NavLink>, scrollTo: Option<int>, prevented: bool)

  /**
   * `handleNavClick` for link `i`: a "#" link whose target exists scrolls to
   * it, closes an open menu and becomes the only active link; a "#" link
   * without a target only suppresses navigation; a link to another page of
   * the site closes an open menu and gains `loading`; an "http" link is
   * left to the browser.
   */
  function HandleNavClick(m: Menu, links: seq<NavLink>, i: nat, doc: Doc): (r: NavClickResult)
    requires i < |links|
    ensures r.prevented <==> Kind(links[i].href).SamePage?
    ensures r.scrollTo.Some? <==> Kind(links[i].href).SamePage? && HasElement(doc, Kind(links[i].href).target)
    ensures r.scrollTo.Some? ==>
              && r.scrollTo.value == doc[Kind(links[i].href).target] - ScrollOffset
              && !r.menu.isOpen
              && SameLinksButActive(links, r.links) && ActiveIndices(r.links) == {i}
    ensures Kind(links[i].href).OtherPage? ==>
              !r.menu.isOpen && r.links == links[i := links[i].(loading := true)]
    ensures Kind(links[i].href).External? || (r.prevented && r.scrollTo.None?) ==>
              r.menu == m && r.links == links
    ensures !m.isOpen ==> r.menu == m
    ensures m.isOpen && (r.scrollTo.Some? || Kind(links[i].href).OtherPage?) ==> r.menu == Close(m)
    ensures Consistent(m) ==> Consistent(r.menu)
  {
    match Kind(links[i].href)
    case SamePage(target) =>
      if HasElement(doc, target) then
        var menu := if m.isOpen then Close(m) else m;
        NavClickResult(menu, SetActiveLink(links, i), Some(ScrollToElementTop(doc, target)), true)
      else
        NavClickResult(m, links, None, true)
    case OtherPage =>
      var menu := if m.isOpen then Close(m) else m;
      NavClickResult(menu, links[i := links[i].(loading := true)], None, false)
    case External =>
      NavClickResult(m, links, None, false)
  }

  /**
   * The listener `setupSmoothScroll` adds to every link whose href starts
   * with "#" and is not "#" alone: when the target exists, suppress
   * navigation and scroll to it (the history update is not modelled).
   */
  function SmoothScrollClick(href: string, doc: Doc): (scrollTo: Option<int>)
    requires StartsWith(href, "#") && href != "#"
    ensures scrollTo.Some? <==> HasElement(doc, href[1..])
    ensures scrollTo.Some? ==> scrollTo.value == doc[href[1..]] - ScrollOffset
  {
    if HasElement(doc, href[1..]) then Some(ScrollToElementTop(doc, href[1..])) else None
  }

  // ---------------------------------------------------------------------
  // The "scrolled" class
  // ---------------------------------------------------------------------

  /** Past this many pixels the navbar counts as scrolled. */
  const ScrolledThreshold := 50

  /** The new `state.scrolled` and the class write `handleScroll` performs, if any. */
  datatype ScrollResult = ScrollResult(scrolled: bool, classWrite: Option<bool>)

  /** `handleScroll`: edge-triggered; the class is written only when the flag changes. */
  function HandleScroll(scrolled: bool, y: int): (r: ScrollResult)
    ensures r.scrolled <==> y > ScrolledThreshold
    ensures r.classWrite.Some? <==> r.scrolled != scrolled
    ensures r.classWrite.Some? ==> r.classWrite.value == r.scrolled
  {
    var should := y > ScrolledThreshold;
    if should != scrolled then ScrollResult(should, Some(should)) else ScrollResult(scrolled, None)
  }

  /** The navbar's `scrolled` class after an optional write. */
  function ApplyWrite(cls: bool, write: Option<bool>): bool {
    if write.Some? then write.value else cls
  }

  /** Component flag and DOM class, stepped through a run of scroll offsets. */
  function RunScrolls(scrolled: bool, cls: bool, ys: seq<int>): (bool, bool)
    decreases |ys|
  {
    if |ys| == 0 then (scrolled, cls)
    else
      var r := HandleScroll(scrolled, ys[0]);
      RunScrolls(r.scrolled, ApplyWrite(cls, r.classWrite), ys[1..])
  }

  /**
   * Starting with class and flag in agreement, any run of scroll events
   * keeps them in agreement and ends with both equal to "last offset > 50".
   */
  lemma {:induction false} ScrolledClassTracksOffset(scrolled: bool, ys: seq<int>)
    requires |ys| > 0
    ensures RunScrolls(scrolled, scrolled, ys).0 == RunScrolls(scrolled, scrolled, ys).1
    ensures RunScrolls(scrolled, scrolled, ys).0 <==> ys[|ys| - 1] > ScrolledThreshold
    decreases |ys|
  {
    var r := HandleScroll(scrolled, ys[0]);
    assert ApplyWrite(scrolled, r.classWrite) == r.scrolled;
    if |ys| > 1 {
      ScrolledClassTracksOffset(r.scrolled, ys[1..]);
      assert ys[1..][|ys[1..]| - 1] == ys[|ys| - 1];
    }
  }

  // ---------------------------------------------------------------------
  // Scroll-driven link highlighting
  // ---------------------------------------------------------------------

  /** The id the top of the page forces. */
  const HeroId := "hero"

  /** `setActiveLinkBySection`'s test: the link points at the section, or at the home page while on the hero. */
  predicate LinkMatches(href: string, id: string) {
    || href == "#" + id
    || ((href == "./index.html" || href == "./") && id == HeroId)
  }

  /** `setActiveLinkBySection`. */
  function SetActiveBySection(links: seq<NavLink>, id: string): (r: seq<NavLink>)
    ensures SameLinksButActive(links, r)
    ensures forall i :: 0 <= i < |r| ==> (r[i].active <==> LinkMatches(links[i].href, id))
  {
    seq(|links|, i requires 0 <= i < |links| => links[i].(active := LinkMatches(links[i].href, id)))
  }

  /** Away from the hero, distinct hrefs leave at most one link active. */
  lemma {:induction false} AtMostOneActiveAwayFromHero(links: seq<NavLink>, id: string)
    requires id != HeroId
    requires forall i, j :: 0 <= i < j < |links| ==> links[i].href != links[j].href
    ensures |ActiveIndices(SetActiveBySection(links, id))| <= 1
  {
    var marked := ActiveIndices(SetActiveBySection(links, id));
    if marked != {} {
      var i :| i in marked;
      forall j | j in marked
        ensures j == i
      {
        assert links[j].href == "#" + id == links[i].href;
      }
      assert marked == {i};
    }
  }

  /** `updateActiveLink`'s band: the section contains the probe position `pos`. */
  predicate NavbarInBand(s: Section, pos: int) {
    s.offsetTop <= pos < s.offsetTop + s.height
  }

  /** The match rule of `updateActiveLink` at scroll offset `y`: probe 100px below it. */
  function NavbarRule(y: int): Section -> bool {
    (s: Section) => NavbarInBand(s, y + ActiveSection.Lookahead)
  }

  /** Probing 100px below the offset is the same as moving every band up by 100px. */
  lemma {:induction false} NavbarScanEqualsMain(sections: seq<Section>, y: int)
    ensures ActiveSection.Scan(sections, NavbarRule(y), "") == ActiveSection.Resolve(sections, y)
  {
    ActiveSection.ScanRespectsEqualRules(sections, NavbarRule(y), ActiveSection.MainRule(y), "");
  }

  /** The section `updateActiveLink` picks: "hero" near the top, otherwise main.js's answer. */
  function ResolveForNavbar(sections: seq<Section>, y: int): (r: string)
    ensures y < ActiveSection.Lookahead ==> r == HeroId
    ensures y >= ActiveSection.Lookahead ==> r == ActiveSection.Resolve(sections, y)
  {
    var current := ActiveSection.Scan(sections, NavbarRule(y), "");
    NavbarScanEqualsMain(sections, y);
    if y < ActiveSection.Lookahead then HeroId else current
  }

  /** `updateActiveLink`: frozen while the mobile menu is open on a mobile viewport. */
  function UpdateActiveLink(isMobile: bool, m: Menu, sections: seq<Section>, y: int, links: seq<NavLink>): (r: seq<NavLink>)
    ensures isMobile && m.isOpen ==> r == links
    ensures !(isMobile && m.isOpen) ==>
              SameLinksButActive(links, r) &&
              forall i :: 0 <= i < |r| ==> (r[i].active <==> LinkMatches(links[i].href, ResolveForNavbar(sections, y)))
  {
    if isMobile && m.isOpen then links
    else SetActiveBySection(links, ResolveForNavbar(sections, y))
  }

  // ---------------------------------------------------------------------
  // Keyboard focus movement
  // ---------------------------------------------------------------------

  /** ArrowRight / ArrowDown: the next link, wrapping to the first. */
  function Next(i: nat, n: nat): (r: nat)
    requires i < n
    ensures r < n
    ensures i + 1 < n ==> r == i + 1
    ensures i + 1 == n ==> r == 0
  {
    (i + 1) % n
  }

  /** ArrowLeft / ArrowUp: the previous link, wrapping to the last. */
  function Prev(i: nat, n: nat): (r: nat)
    requires i < n
    ensures r < n
  {
    if i == 0 then n - 1 else i - 1
  }

  /** The link the keydown handler of link `i` focuses, if the key is one it handles. */
  function FocusTarget(key: string, i: nat, n: nat): (r: Option<nat>)
    requires i < n
    ensures r.Some? ==> r.value < n
    ensures r.Some? <==> key in {"ArrowRight", "ArrowDown", "ArrowLeft", "ArrowUp", "Home", "End"}
    ensures key == "ArrowRight" || key == "ArrowDown" ==> r == Some(Next(i, n))
    ensures key == "ArrowLeft" || key == "ArrowUp" ==> r == Some(Prev(i, n))
    ensures key == "Home" ==> r == Some(0)
    ensures key == "End" ==> r == Some(n - 1)
  {
    if key == "ArrowRight" || key == "ArrowDown" then Some(Next(i, n))
    else if key == "ArrowLeft" || key == "ArrowUp" then Some(Prev(i, n))
    else if key == "Home" then Some(0)
    else if key == "End" then Some(n - 1)
    else None
  }

  /** Previous undoes next and next undoes previous. */
  lemma NextPrevInverse(i: nat, n: nat)
    requires i < n
    ensures Prev(Next(i, n), n) == i
    ensures Next(Prev(i, n), n) == i
  {
  }

  /** An arrow key in one direction is undone by either arrow key in the other. */
  lemma FocusArrowsUndo(i: nat, n: nat, forward: string, back: string)
    requires i < n
    requires forward in {"ArrowRight", "ArrowDown"} && back in {"ArrowLeft", "ArrowUp"}
    ensures FocusTarget(back, FocusTarget(forward, i, n).value, n) == Some(i)
    ensures FocusTarget(forward, FocusTarget(back, i, n).value, n) == Some(i)
  {
    NextPrevInverse(i, n);
  }

  /** Pressing "next" `k` times. */
  function NextTimes(i: nat, n: nat, k: nat): (r: nat)
    requires i < n
    ensures r < n
    decreases k
  {
    if k == 0 then i else NextTimes(Next(i, n), n, k - 1)
  }

  /** Pressing "next" `k <= n` times moves `k` places round the ring of `n` links. */
  lemma {:induction false} NextTimesWraps(i: nat, n: nat, k: nat)
    requires i < n && k <= n
    ensures NextTimes(i, n, k) == if i + k < n then i + k else i + k - n
    decreases k
  {
    if k > 0 {
      NextTimesWraps(Next(i, n), n, k - 1);
    }
  }

  /** `n` presses of "next" come back to the starting link. */
  lemma FullCycle(i: nat, n: nat)
    requires i < n
    ensures NextTimes(i, n, n) == i
  {
    NextTimesWraps(i, n, n);
  }
}

=== FILE: page.dfy ===
/**
 * The slice of the document the scripts read: sections with their layout,
 * navigation links with the classes the scripts toggle, and the ids of the
 * elements present together with their vertical offset.
 */
module Page {

  /** A `section[id]` element as read at scroll time. */
  datatype Section = Section(id: string, offsetTop: int, height: int)

  /** A `.nav-link` element: its `href` attribute and its `active` / `loading` classes. */
  datatype NavLink = NavLink(href: string, active: bool, loading: bool)

  /** The elements that carry an id, mapped to their `offsetTop`. */
  type Doc = map<string, int>

  /** `document.getElementById(id)` finds an element; the empty id never matches. */
  predicate HasElement(doc: Doc, id: string) {
    id != "" && id in doc
  }

  /** `config.scrollOffset`: `scrollToElement` stops this far above the element. */
  const ScrollOffset := 90

  /** The vertical position `scrollToElement` scrolls the window to for element `id`. */
  function ScrollToElementTop(doc: Doc, id: string): int
    requires id in doc
  {
    doc[id] - ScrollOffset
  }

  /** Only the `active` classes may differ between `a` and `b`. */
  predicate SameLinksButActive(a: seq<NavLink>, b: seq<NavLink>) {
    |a| == |b| && forall i :: 0 <= i < |a| ==> a[i].href == b[i].href && a[i].loading == b[i].loading
  }

  /** The indices of the links marked active. */
  function ActiveIndices(links: seq<NavLink>): set<nat> {
    set i: nat | i < |links| && links[i].active
  }
}

=== FILE: ratelimit.dfy ===
/**
 * The two rate limiters of assets/js/main.js (`DesaBelor.utils`) against an
 * abstract integer clock. A pending `setTimeout` callback becomes an explicit
 * timer event, which may arrive at its due time or any time later, never
 * earlier. The shell wraps its scroll handler in `throttle(…, 16)` and its
 * resize handler in `debounce(…, 250)`.
 */
module RateLimit {
  import opened Wrappers

  // ---------------------------------------------------------------------
  // Throttle
  // ---------------------------------------------------------------------

  /** The `inThrottle` flag and when the timer that clears it is due. */
  datatype Throttle = Throttle(inThrottle: bool, releaseAt: int)

  /** The limiter before its first call. */
  const Fresh := Throttle(false, 0)

  /** A call of the wrapper, or the timer callback running. */
  datatype ThrottleEvent = Call(at: int) | TimerFires(at: int)

  /** A call of the wrapper: it reaches `func` exactly when not throttled, and then starts a window of `limit`. */
  function ThrottleCall(t: Throttle, now: int, limit: int): (r: (Throttle, bool))
    ensures r.1 <==> !t.inThrottle
    ensures r.1 ==> r.0.inThrottle && r.0.releaseAt == now + limit
    ensures !r.1 ==> r.0 == t
  {
    if !t.inThrottle then (Throttle(true, now + limit), true) else (t, false)
  }

  /** The timer callback: it can only run once its delay has elapsed, and it clears the flag. */
  function ThrottleTimer(t: Throttle, now: int): (r: Throttle)
    ensures t.inThrottle && now >= t.releaseAt ==> !r.inThrottle
    ensures !(t.inThrottle && now >= t.releaseAt) ==> r == t
  {
    if t.inThrottle && now >= t.releaseAt then t.(inThrottle := false) else t
  }

  /** Steps the limiter through `events`, counting the calls that reached `func`. */
  function RunThrottle(t: Throttle, events: seq<ThrottleEvent>, limit: int): (Throttle, nat)
    decreases |events|
  {
    if |events| == 0 then (t, 0)
    else
      match events[0]
      case Call(now) =>
        var (t1, passed) := ThrottleCall(t, now, limit);
        var (t2, n) := RunThrottle(t1, events[1..], limit);
        (t2, n + if passed then 1 else 0)
      case TimerFires(now) =>
        RunThrottle(ThrottleTimer(t, now), events[1..], limit)
  }

  /**
   * After a call at `t0` passes, no event inside the window `[t0, t0 + limit)`
   * lets another call through, whatever the events are.
   */
  lemma {:induction false} ThrottleWindowBlocks(t0: int, events: seq<ThrottleEvent>, limit: int)
    requires forall k :: 0 <= k < |events| ==> events[k].at < t0 + limit
    ensures RunThrottle(Throttle(true, t0 + limit), events, limit) == (Throttle(true, t0 + limit), 0)
    decreases |events|
  {
    if |events| > 0 {
      ThrottleWindowBlocks(t0, events[1..], limit);
    }
  }

  /** From the fresh limiter the first call always passes and opens the window. */
  lemma FirstCallPasses(now: int, limit: int)
    ensures ThrottleCall(Fresh, now, limit) == (Throttle(true, now + limit), true)
  {
  }

  // ---------------------------------------------------------------------
  // Debounce
  // ---------------------------------------------------------------------

  /** The pending `later` callback: when it is due and the arguments it captured. */
  datatype Pending<A> = Pending(due: int, args: A)

  /** The `timeout` variable: a pending callback or nothing. */
  datatype Debounce<A> = Debounce(timer: Option<Pending<A>>)

  /** A call of the wrapper with its arguments, or the pending callback running. */
  datatype DebounceEvent<A> = Invoke(at: int, args: A) | Expire(at: int)

  /**
   * A call of the wrapper: the pending callback is replaced by one due
   * `wait` later that captures these arguments; `func` runs at once only
   * with `immediate` and only when nothing was pending.
   */
  function DebounceCall<A>(d: Debounce<A>, now: int, args: A, wait: int, immediate: bool): (r: (Debounce<A>, Option<A>))
    ensures r.0.timer == Some(Pending(now + wait, args))
    ensures r.1.Some? <==> immediate && d.timer.None?
    ensures r.1.Some? ==> r.1.value == args
  {
    var callNow := immediate && d.timer.None?;
    (Debounce(Some(Pending(now + wait, args))), if callNow then Some(args) else None)
  }

  /**
   * The pending callback running at `now` (it cannot run before it is due):
   * it clears the timer and, without `immediate`, calls `func` with the
   * captured arguments.
   */
  function DebounceExpire<A>(d: Debounce<A>, now: int, immediate: bool): (r: (Debounce<A>, Option<A>))
    ensures d.timer.None? || now < d.timer.value.due ==> r == (d, None)
    ensures d.timer.Some? && now >= d.timer.value.due ==>
              r.0.timer.None? && r.1 == (if immediate then None else Some(d.timer.value.args))
  {
    match d.timer
    case None => (d, None)
    case Some(p) =>
      if now < p.due then (d, None)
      else (Debounce(None), if immediate then None else Some(p.args))
  }

  /** One event of the debounced wrapper. */
  function DebounceStep<A>(d: Debounce<A>, e: DebounceEvent<A>, wait: int, immediate: bool): (Debounce<A>, Option<A>) {
    match e
    case Invoke(now, args) => DebounceCall(d, now, args, wait, immediate)
    case Expire(now) => DebounceExpire(d, now, immediate)
  }

  /** Steps the limiter through `events`, collecting the arguments `func` ran with. */
  function RunDebounce<A>(d: Debounce<A>, events: seq<DebounceEvent<A>>, wait: int, immediate: bool): (Debounce<A>, seq<A>)
    decreases |events|
  {
    if |events| == 0 then (d, [])
    else
      var (d1, out) := DebounceStep(d, events[0], wait, immediate);
      var (d2, outs) := RunDebounce(d1, events[1..], wait, immediate);
      (d2, (if out.Some? then [out.value] else []) + outs)
  }

  /** Every event of the run is a call of the wrapper. */
  predicate AllCalls<A>(events: seq<DebounceEvent<A>>) {
    forall k :: 0 <= k < |events| ==> events[k].Invoke?
  }

  /**
   * Trailing edge: a burst of calls runs nothing and leaves one callback
   * pending, due `wait` after the last call and holding its arguments.
   */
  lemma {:induction false} BurstLeavesLastPending<A>(d: Debounce<A>, calls: seq<DebounceEvent<A>>, wait: int)
    requires |calls| > 0 && AllCalls(calls)
    ensures var last := calls[|calls| - 1];
            RunDebounce(d, calls, wait, false) == (Debounce(Some(Pending(last.at + wait, last.args))), [])
    decreases |calls|
  {
    var d1 := DebounceStep(d, calls[0], wait, false).0;
    assert DebounceStep(d, calls[0], wait, false).1.None?;
    if |calls| > 1 {
      BurstLeavesLastPending(d1, calls[1..], wait);
      assert calls[1..][|calls[1..]| - 1] == calls[|calls| - 1];
    } else {
      assert d1 == Debounce(Some(Pending(calls[0].at + wait, calls[0].args)));
      assert RunDebounce(d1, calls[1..], wait, false) == (d1, []);
      assert RunDebounce(d, calls, wait, false).0 == d1;
      assert RunDebounce(d, calls, wait, false).1 == [];
    }
  }

  /**
   * Without `immediate`, after a burst the function runs once, with the
   * last call's arguments, at the first expiry no earlier than `wait` after
   * the last call; a later expiry runs nothing.
   */
  lemma TrailingRunsOnceWithLastArgs<A>(d: Debounce<A>, calls: seq<DebounceEvent<A>>, wait: int, t1: int, t2: int)
    requires |calls| > 0 && AllCalls(calls)
    ensures var last := calls[|calls| - 1];
            var (d1, out1) := RunDebounce(d, calls, wait, false);
            var (d2, out2) := DebounceExpire(d1, t1, false);
            && out1 == []
            && (out2.Some? <==> t1 >= last.at + wait)
            && (out2.Some? ==> out2.value == last.args && DebounceExpire(d2, t2, false).1.None?)
  {
    BurstLeavesLastPending(d, calls, wait);
  }

  /**
   * Leading edge: with `immediate`, a burst of calls from the idle state runs
   * the function once, with the first call's arguments.
   */
  lemma {:induction false} LeadingRunsFirstCallOnly<A>(calls: seq<DebounceEvent<A>>, wait: int)
    requires |calls| > 0 && AllCalls(calls)
    ensures RunDebounce(Debounce(None), calls, wait, true).1 == [calls[0].args]
  {
    var d1 := DebounceStep(Debounce(None), calls[0], wait, true).0;
    PendingBurstRunsNothing(d1, calls[1..], wait);
  }

  /** With `immediate`, calls made while a callback is pending run nothing. */
  lemma {:induction false} PendingBurstRunsNothing<A>(d: Debounce<A>, calls: seq<DebounceEvent<A>>, wait: int)
    requires d.timer.Some? && AllCalls(calls)
    ensures RunDebounce(d, calls, wait, true).1 == []
    decreases |calls|
  {
    if |calls| > 0 {
      var d1 := DebounceStep(d, calls[0], wait, true).0;
      PendingBurstRunsNothing(d1, calls[1..], wait);
    }
  }
}

=== FILE: sections.dfy ===
/**
 * Active-section resolution of assets/js/main.js (`updateActiveSection`).
 * Sections are scanned in document order; a section counts as entered 100px
 * before its top reaches the top of the viewport, and every match overwrites
 * the candidate, so the last matching section wins.
 */
module ActiveSection {
  import opened Wrappers
  import opened Page

  /** How far ahead of a section's top it already counts as entered. */
  const Lookahead := 100

  /** The band `[offsetTop - 100, offsetTop - 100 + height)` contains the scroll offset `y`. */
  predicate InBand(s: Section, y: int) {
    var top := s.offsetTop - Lookahead;
    y >= top && y < top + s.height
  }

  /** The match rule of `updateActiveSection` at scroll offset `y`. */
  function MainRule(y: int): Section -> bool {
    (s: Section) => InBand(s, y)
  }

  /**
   * The `forEach` pass: starting from `current`, every section `matches`
   * accepts overwrites the candidate with its id.
   */
  function Scan(sections: seq<Section>, matches: Section -> bool, current: string): string {
    if |sections| == 0 then current
    else Scan(sections[1..], matches, if matches(sections[0]) then sections[0].id else current)
  }

  /**
   * Reference definition, searched from the other end: the index of the
   * last section `matches` accepts, if any.
   */
  function LastMatch(sections: seq<Section>, matches: Section -> bool): (r: Option<nat>)
    ensures r.Some? ==> r.value < |sections| && matches(sections[r.value])
    ensures r.Some? ==> forall j :: r.value < j < |sections| ==> !matches(sections[j])
    ensures r.None? ==> forall j :: 0 <= j < |sections| ==> !matches(sections[j])
  {
    if |sections| == 0 then None
    else if matches(sections[|sections| - 1]) then Some(|sections| - 1)
    else LastMatch(sections[..|sections| - 1], matches)
  }

  /** The id the scan ends with, in terms of the reference definition. */
  function Outcome(sections: seq<Section>, matches: Section -> bool, current: string): string {
    match LastMatch(sections, matches)
    case None => current
    case Some(k) => sections[k].id
  }

  /** The left-to-right overwriting scan picks exactly the last match, or keeps `current`. */
  lemma {:induction false} ScanIsLastMatch(sections: seq<Section>, matches: Section -> bool, current: string)
    ensures Scan(sections, matches, current) == Outcome(sections, matches, current)
    decreases |sections|
  {
    if |sections| > 0 {
      var rest := sections[1..];
      var next := if matches(sections[0]) then sections[0].id else current;
      ScanIsLastMatch(rest, matches, next);
      var whole := LastMatch(sections, matches);
      match LastMatch(rest, matches)
      case None =>
        forall j | 0 < j < |sections|
          ensures !matches(sections[j])
        {
          assert sections[j] == rest[j - 1];
        }
      case Some(k) =>
        assert rest[k] == sections[k + 1];
    }
  }

  /** Scanning with two extensionally equal match rules gives the same id. */
  lemma {:induction false} ScanRespectsEqualRules(sections: seq<Section>, m1: Section -> bool, m2: Section -> bool, current: string)
    requires forall i :: 0 <= i < |sections| ==> m1(sections[i]) == m2(sections[i])
    ensures Scan(sections, m1, current) == Scan(sections, m2, current)
    decreases |sections|
  {
    if |sections| > 0 {
      assert m1(sections[0]) == m2(sections[0]);
      var next := if m1(sections[0]) then sections[0].id else current;
      forall i | 0 <= i < |sections[1..]|
        ensures m1(sections[1..][i]) == m2(sections[1..][i])
      {
        assert sections[1..][i] == sections[i + 1];
      }
      ScanRespectsEqualRules(sections[1..], m1, m2, next);
    }
  }

  /** The id `updateActiveSection` computes for scroll offset `y` ("" when nothing matches). */
  function Resolve(sections: seq<Section>, y: int): (r: string)
    ensures forall k :: 0 <= k < |sections| && InBand(sections[k], y) &&
                        (forall j :: k < j < |sections| ==> !InBand(sections[j], y))
                     ==> r == sections[k].id
    ensures (forall k :: 0 <= k < |sections| ==> !InBand(sections[k], y)) ==> r == ""
  {
    ScanIsLastMatch(sections, MainRule(y), "");
    Scan(sections, MainRule(y), "")
  }

  /** The resolved id is "" or the id of a section whose band contains `y`. */
  lemma ResolvedIsContaining(sections: seq<Section>, y: int)
    ensures var r := Resolve(sections, y);
            r == "" || exists k :: 0 <= k < |sections| && InBand(sections[k], y) && sections[k].id == r
  {
    match LastMatch(sections, MainRule(y))
    case None =>
    case Some(k) =>
  }

  /** `DesaBelor.state.activeSection` together with the navigation links. */
  datatype Tracker = Tracker(activeSection: string, links: seq<NavLink>)

  /** The tracker at page load: "hero" is taken as active, links untouched. */
  function Initial(links: seq<NavLink>): Tracker {
    Tracker("hero", links)
  }

  /**
   * The load state already names "hero": the first update leaves the page
   * untouched (and the markup's own active link in place) exactly when it
   * resolves to "hero".
   */
  lemma FirstUpdateFromLoadState(links: seq<NavLink>, sections: seq<Section>, y: int)
    ensures UpdateActiveSection(Initial(links), sections, y) == Initial(links) <==> Resolve(sections, y) == "hero"
  {
  }

  /**
   * `updateActiveSection`: when the resolved id differs from the stored
   * one, store it and mark exactly the links whose href is "#" + id
   * (for the empty id that is a link whose href is "#"); otherwise write nothing.
   */
  function UpdateActiveSection(t: Tracker, sections: seq<Section>, y: int): (r: Tracker)
    ensures r.activeSection == Resolve(sections, y)
    ensures r.activeSection == t.activeSection ==> r == t
    ensures r.activeSection != t.activeSection ==>
              SameLinksButActive(t.links, r.links) &&
              forall i :: 0 <= i < |r.links| ==> (r.links[i].active <==> t.links[i].href == "#" + r.activeSection)
  {
    var current := Resolve(sections, y);
    if current == t.activeSection then t
    else Tracker(current, seq(|t.links|, i requires 0 <= i < |t.links| =>
                                t.links[i].(active := t.links[i].href == "#" + current)))
  }

  /** A second update at the same offset writes nothing. */
  lemma UpdateIsIdempotent(t: Tracker, sections: seq<Section>, y: int)
    ensures var once := UpdateActiveSection(t, sections, y);
            UpdateActiveSection(once, sections, y) == once
  {
  }

  /** With distinct hrefs at most one link is marked after an update that wrote. */
  lemma {:induction false} UpdateMarksAtMostOne(t: Tracker, sections: seq<Section>, y: int)
    requires forall i, j :: 0 <= i < j < |t.links| ==> t.links[i].href != t.links[j].href
    requires Resolve(sections, y) != t.activeSection
    ensures |ActiveIndices(UpdateActiveSection(t, sections, y).links)| <= 1
  {
    var r := UpdateActiveSection(t, sections, y);
    var marked := ActiveIndices(r.links);
    if marked != {} {
      var i :| i in marked;
      forall j | j in marked
        ensures j == i
      {
        assert t.links[j].href == t.links[i].href;
      }
      assert marked == {i};
    }
  }
}

=== FILE: shell.dfy ===
/**
 * The application shell of assets/js/main.js around the navbar: the
 * viewport flag kept by `handleResize`, the document-level anchor handler
 * `handleNavigation`, the level-triggered navbar class of `handleScroll`,
 * and how these combine with the navbar component's own listeners.
 */
module AppShell {
  import opened Wrappers
  import opened Page
  import opened Text
  import Navbar

  /** Viewports at least this wide are desktop. */
  const DesktopWidth := 1024

  /** `DesaBelor.state.isMobile` and the navbar component's menu. */
  datatype Shell = Shell(isMobile: bool, menu: Navbar.Menu)

  /** The shell at page load for a viewport of the given width. */
  function Initial(width: int): (s: Shell)
    ensures s.isMobile <==> width < DesktopWidth
    ensures !s.menu.isOpen && Navbar.Consistent(s.menu)
  {
    Shell(width < DesktopWidth, Navbar.Closed)
  }

  // ---------------------------------------------------------------------
  // Resize
  // ---------------------------------------------------------------------

  /**
   * `handleResize` as the source writes it: record the viewport and, on a
   * desktop viewport, strip `active` from the menu panel and toggle. The
   * navbar's `isOpen`, its `menu-open` class and the body lock are not touched.
   */
  function HandleResizeAsWritten(s: Shell, width: int): (r: Shell)
    ensures r.isMobile <==> width < DesktopWidth
    ensures r.isMobile ==> r.menu == s.menu
    ensures !r.isMobile ==> r.menu == s.menu.(panelShown := false)
  {
    var mobile := width < DesktopWidth;
    if mobile then Shell(mobile, s.menu)
    else Shell(mobile, s.menu.(panelShown := false))
  }

  /**
   * The as-written resize breaks the menu: after opening the menu on a
   * phone-sized viewport and widening past 1024px, the panel is hidden but
   * the navbar still believes it is open and the body stays locked; the
   * next toggle click only "closes" the hidden menu, so it shows nothing.
   */
  lemma ResizeAsWrittenDesynchronisesMenu()
    ensures var phone := Shell(true, Navbar.Open(Navbar.Closed));
            var widened := HandleResizeAsWritten(phone, 1200);
            && !widened.isMobile
            && !Navbar.Consistent(widened.menu)
            && widened.menu.isOpen && widened.menu.bodyLocked && !widened.menu.panelShown
            && !Navbar.Toggle(widened.menu).panelShown
  {
  }

  /**
   * `handleResize` corrected: on a desktop viewport an open menu is closed
   * through the navbar component, so flag, classes and body lock agree.
   */
  function HandleResize(s: Shell, width: int): (r: Shell)
    ensures r.isMobile <==> width < DesktopWidth
    ensures r.isMobile ==> r.menu == s.menu
    ensures !r.isMobile ==> !r.menu.isOpen && !r.menu.panelShown
    ensures Navbar.Consistent(s.menu) ==> Navbar.Consistent(r.menu)
    ensures !s.menu.isOpen ==> r == HandleResizeAsWritten(s, width)
  {
    var stripped := HandleResizeAsWritten(s, width);
    if !stripped.isMobile && stripped.menu.isOpen then stripped.(menu := Navbar.Close(stripped.menu))
    else stripped
  }

  /** With the correction, a menu open on mobile is closed by one resize to desktop and the next toggle opens it again. */
  lemma ResizeToDesktopThenToggle(s: Shell, width: int)
    requires Navbar.Consistent(s.menu) && width >= DesktopWidth
    ensures var r := HandleResize(s, width);
            !r.menu.isOpen && Navbar.Toggle(r.menu).isOpen && Navbar.Toggle(r.menu).panelShown
  {
  }

  // ---------------------------------------------------------------------
  // Document-level anchor clicks
  // ---------------------------------------------------------------------

  /** The href a click reached through `closest('a[href^="#"]:not([href="#"])')`. */
  predicate IsInPageHref(href: string) {
    StartsWith(href, "#") && href != "#"
  }

  /** What `handleNavigation` did. */
  datatype NavigationResult = NavigationResult(shell: Shell, prevented: bool, scrollTo: Option<int>)

  /**
   * `handleNavigation`: for a click inside an in-page anchor, suppress
   * navigation; if the target exists scroll to it and, on mobile, strip
   * `active` from the menu panel and toggle.
   */
  function HandleNavigation(s: Shell, anchor: Option<string>, doc: Doc): (r: NavigationResult)
    requires anchor.Some? ==> IsInPageHref(anchor.value)
    ensures r.prevented <==> anchor.Some?
    ensures r.scrollTo.Some? <==> anchor.Some? && HasElement(doc, anchor.value[1..])
    ensures r.scrollTo.Some? ==> r.scrollTo.value == doc[anchor.value[1..]] - ScrollOffset
    ensures r.shell.isMobile == s.isMobile
    ensures r.scrollTo.Some? && s.isMobile ==> r.shell.menu == s.menu.(panelShown := false)
    ensures r.scrollTo.None? || !s.isMobile ==> r.shell == s
  {
    match anchor
    case None => NavigationResult(s, false, None)
    case Some(href) =>
      var target := href[1..];
      if HasElement(doc, target) then
        var shell := if s.isMobile then s.(menu := s.menu.(panelShown := false)) else s;
        NavigationResult(shell, true, Some(ScrollToElementTop(doc, target)))
      else NavigationResult(s, true, None)
  }

  /** Everything one click on a navigation link changes. */
  datatype Dispatch = Dispatch(shell: Shell, links: seq<NavLink>, scrolls: seq<int>)

  /**
   * A click on navigation link `i`, through every listener in registration
   * order: the link's `handleNavClick`, the link's smooth-scroll listener
   * (in-page hrefs only), the document's `handleNavigation`, and the
   * navbar's outside-click listener (the link lies inside the navbar).
   */
  function ClickNavLink(s: Shell, links: seq<NavLink>, i: nat, doc: Doc): Dispatch
    requires i < |links|
  {
    var href := links[i].href;
    var nav := Navbar.HandleNavClick(s.menu, links, i, doc);
    var smooth := if IsInPageHref(href) then Navbar.SmoothScrollClick(href, doc) else None;
    var shell := s.(menu := nav.menu);
    var doc1 := HandleNavigation(shell, if IsInPageHref(href) then Some(href) else None, doc);
    var menu := Navbar.DocumentClick(doc1.shell.menu, true);
    var scrolls := (if nav.scrollTo.Some? then [nav.scrollTo.value] else [])
                 + (if smooth.Some? then [smooth.value] else [])
                 + (if doc1.scrollTo.Some? then [doc1.scrollTo.value] else []);
    Dispatch(doc1.shell.(menu := menu), links := nav.links, scrolls := scrolls)
  }

  /**
   * Clicking an in-page link whose target exists closes the menu
   * consistently, leaves exactly that link active, and scrolls three
   * times, each time to the same place: 90px above the target.
   */
  lemma {:induction false} ClickInPageLink(s: Shell, links: seq<NavLink>, i: nat, doc: Doc)
    requires i < |links| && Navbar.Consistent(s.menu)
    requires IsInPageHref(links[i].href) && HasElement(doc, links[i].href[1..])
    ensures var d := ClickNavLink(s, links, i, doc);
            && !d.shell.menu.isOpen && Navbar.Consistent(d.shell.menu)
            && ActiveIndices(d.links) == {i} && SameLinksButActive(links, d.links)
            && d.scrolls == [doc[links[i].href[1..]] - ScrollOffset, doc[links[i].href[1..]] - ScrollOffset, doc[links[i].href[1..]] - ScrollOffset]
  {
    var href := links[i].href;
    assert Navbar.Kind(href) == Navbar.SamePage(href[1..]);
  }

  /** Clicking a link to another page of the site closes the menu consistently and scrolls nowhere. */
  lemma {:induction false} ClickOtherPageLink(s: Shell, links: seq<NavLink>, i: nat, doc: Doc)
    requires i < |links| && Navbar.Consistent(s.menu)
    requires !StartsWith(links[i].href, "#") && !StartsWith(links[i].href, "http")
    ensures var d := ClickNavLink(s, links, i, doc);
            && !d.shell.menu.isOpen && Navbar.Consistent(d.shell.menu)
            && d.scrolls == [] && d.links[i].loading
  {
    assert !IsInPageHref(links[i].href);
    assert Navbar.Kind(links[i].href) == Navbar.OtherPage;
  }

  // ---------------------------------------------------------------------
  // The navbar's "scrolled" class, written by two listeners
  // ---------------------------------------------------------------------

  /** `handleScroll` of the shell: level-triggered, it writes the class on every event. */
  function ShellScrolledClass(y: int): (cls: bool)
    ensures cls <==> y > Navbar.ScrolledThreshold
  {
    y > Navbar.ScrolledThreshold
  }

  /**
   * One scroll event seen by both listeners, in either order: whatever the
   * class and the component flag were before, afterwards both say
   * "offset > 50".
   */
  lemma BothScrollListenersAgree(scrolled: bool, cls: bool, y: int, shellFirst: bool)
    ensures var r := Navbar.HandleScroll(scrolled, y);
            var after := if shellFirst then Navbar.ApplyWrite(ShellScrolledClass(y), r.classWrite)
                         else ShellScrolledClass(y);
            after == r.scrolled && (after <==> y > Navbar.ScrolledThreshold)
  {
  }
}

=== FILE: text.dfy ===
/**
 * String helpers shared by the scripts: JavaScript's white-space class (what
 * `\s` in a regular expression and `String.prototype.trim` strip), trimming,
 * ASCII lower-casing and the `truncateText` utility of assets/js/main.js.
 * Strings are sequences of characters; JavaScript counts UTF-16 code units,
 * which agrees for text inside the Basic Multilingual Plane.
 */
module Text {

  /** The characters JavaScript treats as white space or line terminators. */
  predicate IsSpace(c: char) {
    || c == ' ' || c == '\t' || c == '\n' || c == '\U{B}' || c == '\U{C}' || c == '\r'
    || c == '\U{A0}' || c == '\U{1680}' || ('\U{2000}' <= c <= '\U{200A}')
    || c == '\U{2028}' || c == '\U{2029}' || c == '\U{202F}' || c == '\U{205F}'
    || c == '\U{3000}' || c == '\U{FEFF}'
  }

  /** `String.prototype.startsWith`. */
  predicate StartsWith(s: string, prefix: string) {
    |prefix| <= |s| && s[..|prefix|] == prefix
  }

  /** Every character is white space (this includes the empty string). */
  predicate Blank(s: string) {
    forall i :: 0 <= i < |s| ==> IsSpace(s[i])
  }

  /** Drops leading white space: the result is a suffix of `s` preceded only by white space. */
  function TrimStart(s: string): (r: string)
    ensures |r| <= |s| && r == s[|s| - |r|..]
    ensures forall i :: 0 <= i < |s| - |r| ==> IsSpace(s[i])
    ensures |r| > 0 ==> !IsSpace(r[0])
  {
    if |s| > 0 && IsSpace(s[0]) then TrimStart(s[1..]) else s
  }

  /** Drops trailing white space: the result is a prefix of `s` followed only by white space. */
  function TrimEnd(s: string): (r: string)
    ensures |r| <= |s| && r == s[..|r|]
    ensures forall i :: |r| <= i < |s| ==> IsSpace(s[i])
    ensures |r| > 0 ==> !IsSpace(r[|r| - 1])
  {
    if |s| > 0 && IsSpace(s[|s| - 1]) then TrimEnd(s[..|s| - 1]) else s
  }

  /** `String.prototype.trim`. */
  function Trim(s: string): string {
    TrimEnd(TrimStart(s))
  }

  /** `!value.trim()` in the validators: the trimmed value is empty exactly when the value is blank. */
  lemma {:induction false} TrimEmptyIffBlank(s: string)
    ensures Trim(s) == "" <==> Blank(s)
  {
    var t := TrimStart(s);
    if Trim(s) == "" {
      assert |t| == 0;
    } else {
      var u := Trim(s);
      assert !IsSpace(u[0]);
      assert u[0] == t[0] == s[|s| - |t|];
    }
  }

  /** The `maxLength` used when `truncateText` is called without one. */
  const DefaultMaxLength := 100

  /**
   * `truncateText(text, maxLength)`: text that fits is returned as it is;
   * longer text keeps its first `maxLength` characters (none when
   * `maxLength` is negative, as `substring` clamps) followed by "...".
   */
  function Truncate(text: string, maxLength: int): (r: string)
    ensures |text| <= maxLength ==> r == text
    ensures |text| > maxLength ==>
              var keep := if maxLength < 0 then 0 else maxLength;
              |r| == keep + 3 && r[..keep] == text[..keep] && r[keep..] == "..."
  {
    if |text| <= maxLength then text
    else text[..if maxLength < 0 then 0 else maxLength] + "..."
  }

  /** Truncating an already truncated text changes nothing. */
  lemma {:induction false} TruncateIdempotent(text: string, maxLength: int)
    ensures Truncate(Truncate(text, maxLength), maxLength) == Truncate(text, maxLength)
  {
    var r := Truncate(text, maxLength);
    if |text| > maxLength {
      var keep := if maxLength < 0 then 0 else maxLength;
      assert |r| > maxLength;
      assert r[..keep] + "..." == r;
    }
  }

  /** ASCII lower-casing of one character. */
  function LowerChar(c: char): char {
    if 'A' <= c <= 'Z' then (c as int + 32) as char else c
  }

  /** `String.prototype.toLowerCase` restricted to ASCII letters. */
  function Lower(s: string): (r: string)
    ensures |r| == |s|
    ensures forall i :: 0 <= i < |s| ==> !('A' <= r[i] <= 'Z')
    ensures forall i :: 0 <= i < |s| && !('A' <= s[i] <= 'Z') ==> r[i] == s[i]
    ensures forall i :: 0 <= i < |s| && 'A' <= s[i] <= 'Z' ==> r[i] as int == s[i] as int + ('a' as int - 'A' as int)
  {
    seq(|s|, i requires 0 <= i < |s| => LowerChar(s[i]))
  }

  /** Lower-casing twice is lower-casing once. */
  lemma LowerIdempotent(s: string)
    ensures Lower(Lower(s)) == Lower(s)
  {
  }
}

=== FILE: wrappers.dfy ===
/** The optional-value datatype the rest of the model uses for "element may be absent". */
module Wrappers {

  datatype Option<+T> = None | Some(value: T)
}
